=== FILE: README.md ===
# Discord database-backup agent, modelled in Dafny

The agent in `bot-backup/index.js` is a Discord bot that backs up one MySQL
database over and over. When the bot is ready, it takes the name of the first
server it belongs to and sanitises it into an identifier. That identifier
namespaces the backup folders and the log file. Each cycle (`taskBackup`) runs
these steps:

1. Check the `backup` section of the configuration.
2. Sweep the entries under `./backups/<name>` that are older than the retention
   period (`cleanOldBackups`).
3. Run one backup (`executeBackup`). It dumps the database to
   `./backups/<name>/<YYYY>-<MM>-<DD>/<name>-<ISO time>.sql`, compresses the
   dump into a `.zip` beside it, checks that the archive is not empty, and
   removes the dump.
4. Hand the archive and a report to a Discord channel.
5. Arm a timer for the next cycle.

Most steps append a line to `./logs/<name>_backup.log`. Two do not: the
cycle's refusal of a configuration without a database (index.js:202-204), and
the failed removal of an empty archive (index.js:139-141). Both write only to
the console.

The model keeps all of this decision logic and turns every outside effect into
an input. Those effects are the MySQL dump, the compression, the archive's size,
each `rm` and `stat`, the directory listing, the Discord channel and each log
append. The filesystem is a set of paths. The log is a sequence of events. An
exception is a `Thrown` step. The timer is the returned decision: `Idle`,
`RunAfter(ms)` or `Rejected`.

Modules, in dependency order:

- `Text` (`text.dfy`): decimal digits, `toString`, `padStart`, and `replace`
  with a global regular expression and with a plain string.
- `Sanitizer` (`sanitizer.dfy`): the server-name sanitiser.
- `Paths` (`paths.dfy`): the folder, dump, archive and log paths. It also has
  the date segment, `toISOString()` and `path.basename`.
- `Options` and `Config` (`config.dfy`): the configuration and the `||`
  defaulting JavaScript applies to it. `Config` also holds both validity checks
  and the scheduling delay.
- `Effects` (`effects.dfy`): the world state, the log line format and the
  failing log append.
- `Retention` (`retention.dfy`): the retention sweep.
- `Pipeline` (`pipeline.dfy`): one backup run.
- `Cycle` (`cycle.dfy`): one cycle, the delivery to the channel, the timer
  decision and the chain of cycles.

The `failing` set says which log appends fail. Appends are numbered in the order
they are attempted, and a failing append throws like any rejected promise. Most
results are stated twice: once for the case where no further append fails
(`NoFailureFrom`), and once for what holds no matter which appends fail.

## Model

| member | source | states |
|---|---|---|
| Sanitizer.Sanitize | bot-backup/index.js:39 | every output character is in `[A-Za-z0-9_-]`; the output has one character per UTF-16 code unit of the input; a name that is already allowed comes back unchanged |
| Sanitizer.SanitizePointwise | bot-backup/index.js:39 | for a name without astral characters, the length is kept and each position keeps its allowed character or becomes `_` |
| Sanitizer.SanitizeMatches | bot-backup/index.js:39 | conversely, any string that follows that rule at every position is the sanitised name |
| Sanitizer.SanitizeIdempotent | bot-backup/index.js:39 | sanitising twice gives the same result as sanitising once |
| Sanitizer.SanitizeAppend | bot-backup/index.js:39 | the sanitiser works piece by piece: the sanitised concatenation is the concatenation of the sanitised pieces |
| Sanitizer.SanitizeExample | bot-backup/index.js:39 | `"My Server! 2024"` becomes `"My_Server__2024"` |
| Sanitizer.SourceIdHasNoSeparators | bot-backup/index.js:39 | a sanitised name has no `/`, `.` or `:`, so it is one path segment |
| Text.NatToDec | bot-backup/index.js:88 | `toString()` of a whole number is a string of digits without a leading zero that reads back as the number |
| Text.IntToDec | bot-backup/index.js:88 | `toString()` of a possibly negative year reads back as that year |
| Text.Pad | bot-backup/index.js:88 | `padStart(2, '0')` of a month or day reads back as the number and has exactly the requested width whenever the number fits in it |
| Text.ReplaceEvery | bot-backup/index.js:89 | `replace(/:/g, '-')` keeps the length and replaces each occurrence of the character, and only those |
| Text.ReplaceFirstLeftmost | bot-backup/index.js:91 | `replace('.sql', '.zip')` replaces the leftmost occurrence of the pattern and leaves everything around it alone |
| Text.ReplaceFirstAbsent | bot-backup/index.js:91 | a string without the pattern is returned unchanged |
| Paths.DateSegmentRoundTrip | bot-backup/index.js:88 | the folder's date segment reads back as year, then month and day, each as exactly two digits |
| Paths.IsoTimestamp | bot-backup/index.js:89 | the `toISOString()` text uses only digits, `-`, `+`, `:`, `.`, `T` and `Z` |
| Paths.DumpFileNameShape | bot-backup/index.js:89 | the dump file name ends in `.sql` and contains no `:` and no `/` |
| Paths.ZipNameReplacesExtension | bot-backup/index.js:91 | the archive name is the dump name with only its final `.sql` turned into `.zip`; the sanitised name and the ISO fraction never hold an earlier `.sql` |
| Paths.PathsForLayout | bot-backup/index.js:88-92 | the dated folder sits directly under `./backups/<name>`; the dump and the archive sit side by side in it, differ only in their extension, and are different files |
| Paths.BasenameOfRender | bot-backup/index.js:258 | `path.basename` of a rendered path is its last segment |
| Paths.SourcesAreSeparated | bot-backup/index.js:59 | two different sanitised names get different log files and different backup roots; for two non-empty names neither root lies inside the other, while an empty name's root is `./backups` itself, which holds every other root |
| Effects.LogLineRoundTrip | bot-backup/index.js:63-65 | a `[timestamp] message` line, written with a timestamp free of `]`, parses back into that timestamp and message |
| Effects.IsoTimestampHasNoBracket | bot-backup/index.js:63 | a `toISOString()` timestamp never contains `]`, so every log line parses back |
| Effects.Append | bot-backup/index.js:57-66 | an append changes only the log and the append count; it succeeds exactly when its number is not failing, and only then does the log gain the event |
| Config.RetentionDays | bot-backup/index.js:170 | a missing or zero `retentionDays` means 30; any other value is used as given |
| Config.CooldownMinutes | bot-backup/index.js:231 | a missing or zero `cooldown` means 10; any other value is used as given |
| Config.RescheduleDelayMs | bot-backup/index.js:297 | the delay requested from `setTimeout` is a whole number of minutes, never under one minute, and equals the cooldown in minutes whenever that is at least one |
| Config.NextRunMs | bot-backup/index.js:231 | the announced next run lies exactly `(cooldown \|\| 10)` minutes after the backup |
| Config.NextRunMatchesDelay | bot-backup/index.js:231-297 | the announced next run is exactly one scheduling delay after the backup if and only if the cooldown is at least one minute |
| Config.BackupCheckIsStricter | bot-backup/index.js:80-202 | every configuration the backup accepts passes the cycle's check; a configuration with only a database passes the cycle's check and fails the backup's |
| Retention.ExpiredIsAgeInDays | bot-backup/index.js:179-180 | the whole-millisecond comparison agrees with dividing the age by the length of a day and comparing it with the retention period |
| Retention.SweepEntries | bot-backup/index.js:176-188 | a completed loop removes exactly the overdue entries whose removal succeeds, in listing order, with everything below them; it only removes, and touches neither the outbox nor anything else; it completes when every entry can be `stat`ed and no log append fails |
| Retention.SweepLogsEvents | bot-backup/index.js:176-188 | when no append fails, a completed sweep logs one line per overdue entry in listing order: the removal, or the failure to remove it |
| Retention.AnnounceRemoval | bot-backup/index.js:181-186 | the line announcing a removal is written when it can be; when that append throws, the `catch` writes the failure line instead, and the step throws only when both appends fail |
| Retention.SweepLogsOnlyRemovals | bot-backup/index.js:176-188 | whatever fails, the sweep only appends to the log, at most one line per entry, and only removal or failed-removal lines |
| Retention.CompletedSweepStattedAll | bot-backup/index.js:176-180 | a sweep completes only when every listed entry could be `stat`ed; a `stat` that throws anywhere in the listing makes the sweep throw |
| Retention.SweepSurvivesIsolatedFailures | bot-backup/index.js:181-186 | when every entry can be `stat`ed and removed, the sweep completes unless two consecutive appends fail |
| Retention.AnnouncementFailureIsCaught | bot-backup/index.js:181-186 | an overdue entry whose announcing line cannot be written is still removed, the failure line is logged instead, and the sweep completes |
| Retention.Sweep | bot-backup/index.js:169-175 | without a backup root nothing happens; a `readdir` that throws makes the sweep throw; otherwise the loop runs over the listing with the defaulted retention period |
| Retention.RemovedExactly | bot-backup/index.js:180-182 | an entry is removed if and only if it is listed, older than the period, and its removal succeeds |
| Retention.RemovedAndSurvivorsPartition | bot-backup/index.js:176-188 | removed and surviving entries together are exactly the listing, so nothing is lost and nothing is removed twice |
| Retention.SweepAgainRemovesNothing | bot-backup/index.js:176-188 | a second sweep over the survivors, at the same instant and with each entry's `stat` and `rm` behaving as they did the first time, removes nothing; if no removal failed the first time, it logs nothing either |
| Retention.SweepFrame | bot-backup/index.js:182 | after a completed sweep, a path exists if and only if it existed before and lies below no removed entry |
| Retention.WithoutAllKeeps | bot-backup/index.js:182 | a path survives the removals exactly when it existed and lies below none of the removed entries |
| Retention.ThresholdExample | bot-backup/index.js:170-180 | with a 30-day period, entries 10, 29, 30, 31 and 40 days old lose exactly the 31- and 40-day ones |
| Pipeline.MakeFolder | bot-backup/index.js:95-97 | an existing folder is left alone; otherwise the folder and its parents are created, or the step throws when `mkdir` fails |
| Pipeline.Conclude | bot-backup/index.js:133-155 | an empty archive is logged and returns `false`, with the dump kept and the archive gone when its removal succeeds; a non-empty archive returns the archive's path, with the dump gone exactly when its removal succeeds, and a warning logged otherwise |
| Pipeline.Attempt | bot-backup/index.js:86-155 | a failed dump logs and returns `false` with no new file; a failed compression logs and returns `false` with the dump kept; a failed `mkdir` or `stat` throws; a run adds only the folder with its parents, the dump and the archive, and removes only the dump and the archive |
| Pipeline.ExecuteBackup | bot-backup/index.js:79-160 | a configuration without host, database or user is refused with one log line and the disk untouched; a run returns the archive's path and the backup instant only after a dump, a compression and a non-empty archive; it always returns when no log append fails |
| Pipeline.ExecuteBackupFrame | bot-backup/index.js:88-154 | whatever happens, a run adds only the dated folder with its parents, the dump and the archive, and removes only the dump and the archive |
| Pipeline.BackupLeavesArchive | bot-backup/index.js:145-155 | a run that returns the archive leaves it on disk, and leaves the dump exactly when its removal failed |
| Pipeline.DumpFailureLeavesNoFiles | bot-backup/index.js:99-112 | a failed dump returns `false`, logs why, and creates neither the dump nor the archive |
| Pipeline.EmptyArchiveKeepsDump | bot-backup/index.js:133-143 | an empty archive returns `false` and logs it; the dump stays, and the archive is gone if and only if its removal succeeded |
| Pipeline.NonEmptyArchiveSucceeds | bot-backup/index.js:145-155 | a non-empty archive returns the archive's path whether or not the dump could be removed; the only difference is a warning line before the success line |
| Pipeline.ExceptionBecomesFalse | bot-backup/index.js:134-158 | a `stat` of the archive that throws is caught, logged as unexpected, and turned into `false` |
| Pipeline.MkdirFailureBecomesFalse | bot-backup/index.js:95-158 | when the folder is missing and `mkdir` throws, the run is caught, logged as unexpected, turned into `false`, and creates nothing |
| Cycle.Deliver | bot-backup/index.js:210-291 | the channel receives the report exactly when it is a text channel, the archive is still there, the announced next run is a date JavaScript can hold, and the send succeeds; the disk never changes; when no append fails the delivery completes and logs exactly one line: sent, channel missing, or failed |
| Cycle.DeliveryFailuresCaught | bot-backup/index.js:283-290 | a failed `DeliverySent` or `ChannelMissing` append is caught and logged as a delivery failure instead, and the delivery escapes only when that line fails too; a fetch, `stat` or `send` that throws is logged as a delivery failure; only a failing append of that failure line escapes, and an escaping delivery has written nothing to the log |
| Cycle.DeliverySucceeds | bot-backup/index.js:213-283 | a successful send, with an announced next run inside the range of a JavaScript date, hands over one report and logs one line |
| Cycle.FarNextRunNotSent | bot-backup/index.js:231-290 | a `cooldown` that puts the announced next run outside the range of a JavaScript date makes its formatting throw: the delivery failure is logged and nothing is sent |
| Cycle.HugeCooldownExample | bot-backup/index.js:231 | a cooldown of two hundred billion minutes is such a cooldown |
| Cycle.ReportNamesArchive | bot-backup/index.js:245-258 | the report for a run names the archive by its file name, the last segment of the archive's path, and carries the archive's size and the backup instant |
| Cycle.BackupSucceeds | bot-backup/index.js:86-155 | a backup in which every step succeeds returns the archive's path, leaves the archive and not the dump, logs only the creation, and sends nothing |
| Cycle.CycleBody | bot-backup/index.js:201-298 | without a database the cycle ends with no timer and no change; a body that does not throw always arms the configured delay |
| Cycle.TaskBackup | bot-backup/index.js:200-306 | as written: without a database there is no timer; every delay requested from `setTimeout` is at least one minute; a cycle can reject without any timer only when a log append fails |
| Cycle.CompleteCycleReschedules | bot-backup/index.js:288-298 | when no log append fails and every listed entry can be `stat`ed, the cycle requests the configured delay, at least one minute, whatever the backup and the channel did |
| Cycle.EscapedExceptionRetries | bot-backup/index.js:299-304 | a `readdir` that throws is logged as unexpected and arms the five-minute retry, provided that log line can be written |
| Cycle.EscapedExceptionArmsRetry | bot-backup/index.js:299-304 | whatever escapes the body of the cycle, the as-written cycle logs it and arms exactly the five-minute retry when that line can be written, and the corrected cycle always arms it; a body that completes arms the delay it returned in both |
| Cycle.StatFailureRetries | bot-backup/index.js:178-304 | when the first listed entry's `stat` throws, the sweep ends before anything is removed; the cycle logs the unexpected error and arms the five-minute retry |
| Cycle.UnloggedRefusalRetries | bot-backup/index.js:80-84 | the line refusing a configuration lies outside the backup's `try`, so when it cannot be written the exception reaches the cycle, which logs it and arms the five-minute retry |
| Cycle.SweptCycleReschedules | bot-backup/index.js:207-297 | once the sweep has completed and no later append fails, the cycle arms the configured delay whatever the backup and the channel did |
| Cycle.AnnouncementFailureStillReschedules | bot-backup/index.js:181-297 | an overdue entry whose announcing line cannot be written is still removed, and the cycle goes on to the backup and arms the configured delay, not the retry |
| Cycle.DatabaseOnlyConfigStillReschedules | bot-backup/index.js:80-84 | a configuration with only a database makes the backup refuse; the cycle logs the refusal and the missing backup and still arms the ten-minute default |
| Cycle.CorrectedAgreesUnlessRejected | bot-backup/index.js:299-305 | the as-written cycle rejects if and only if its body threw and the catch's log append failed; otherwise it behaves exactly like the corrected cycle |
| Cycle.UnloggableFailureStopsSchedule | bot-backup/index.js:299-305 | when `readdir` throws and the log cannot be appended to, the as-written cycle rejects with no timer armed, while the corrected cycle arms the five-minute retry |
| Cycle.TaskBackupCorrected | bot-backup/index.js:299-305 | every cycle with a database arms a timer, requesting either the configured delay or the five-minute retry, and never less than a minute |
| Cycle.Schedule | bot-backup/index.js:298-304 | with the corrected catch (see Findings) and a database configured, the chain of cycles never stops: every cycle arms one timer, each with the configured delay or the five-minute retry; without a database nothing happens at all. As written, a failing catch line ends the chain |
| Cycle.SuccessfulCycle | bot-backup/index.js:200-298 | a first cycle in which everything succeeds, with an announced next run inside the range of a JavaScript date, leaves the archive and not the dump, logs the creation and the delivery, sends exactly one report naming the archive's file, and arms the configured delay |

## Left out

- The Discord client: login, the `ready` event, the guild fetch and the choice
  of the first guild's name are network code. The model starts from an
  already-sanitised name. The channel is one of four outcomes.
- `mysqldump` and `archiver` are foreign libraries. They appear only as
  outcomes and an archive size.
- The real filesystem and the timers are not modelled. The model has no
  `existsSync` or `mkdirSync` of `./logs` and no `setTimeout`. The log is a
  sequence of events, and the timer is the returned decision.
- The Portuguese wording of the log messages, with the level tag each starts
  with, is left out. Each message is an event.
- Console output is left out.
- Date and time formatting is left out: the `pt-BR` date strings, the size in
  megabytes with `toFixed(2)`, the embed's layout, its thumbnail and its footer.
  The report keeps the raw values: database, file name, size in bytes, backup
  instant and announced next run.
- The output-stream `'error'` handler (index.js:118-121) is left out. It is an
  event callback whose result nobody reads.
- Only one cycle runs at a time, so concurrency is not modelled.
- Only whole numbers are modelled. A fractional `mtimeMs`, `retentionDays` or
  `cooldown` is out of scope. So is a configuration field of the wrong type,
  such as a number where a string is expected.
- The relation between the local date of the folder and the UTC time of the file
  name is left out. Both come from the same instant, but time zones are not
  modelled, so the two are independent inputs.
- Pipeline.DumpFailureLeavesNoFiles: assumes a failed `mysqldump` leaves no
  partial `.sql` file behind. The library's behaviour on failure is not
  modelled.
- Pipeline.Attempt: the archive file counts as created as soon as the dump
  succeeds, because `createWriteStream` opens it. A failed compression
  therefore leaves an archive behind.
- Retention.SweepFrame: a failed recursive `rm` is assumed to remove nothing.
  Node's `fs.rm` with `recursive` deletes the tree entry by entry. It can
  throw after part of the tree is gone, for example on a read-only
  subfolder. The model does not cover that partial removal.
- Pipeline.MkdirFailureBecomesFalse: a failed recursive `mkdirSync` is assumed
  to create nothing. In Node it can throw after creating some of the folders
  above the dated one, such as `./backups/<name>`. The lemma's "creates
  nothing" rests on that all-or-nothing assumption.
- Config.RescheduleDelayMs: the delays in the model, here and in
  Cycle.TaskBackup, Cycle.CompleteCycleReschedules and Cycle.Schedule, are
  the values requested from `setTimeout`. They are not when the next cycle
  runs. Node treats any delay above 2147483647 ms, 2^31 - 1, as 1 ms. So a
  `cooldown` of 35792 minutes or more, such as 43200 for a monthly backup,
  makes the cycles run back to back. That 32-bit limit is not modelled.
- Cycle.Deliver: the model assumes the archive's size is the same at both
  `stat` calls (index.js:134 and 216). That assumption is not checked: the run
  awaits only `archive.finalize()` (index.js:127) and never waits for the
  output stream to close, so the file may still be growing at the first call.
- Sanitizer.Sanitize: the sanitiser keeps the length in UTF-16 code units,
  which is JavaScript's `length`. It does not keep the length in characters: a
  character outside the Basic Multilingual Plane becomes two underscores,
  because the expression has no `u` flag.

## Findings

| source | as written | input that shows it | evidently intended | confidence | as-written member | corrected member |
|---|---|---|---|---|---|---|
| bot-backup/index.js:299-305 | the `catch` of `taskBackup` awaits the log append before it calls `setTimeout`, so a rejected append skips the retry and rejects the cycle's promise, and the cycle never runs again | the backup root exists, `readdir` throws, and the log file cannot be appended to (disk full) | the comment at line 303 says the next run is scheduled even on error, so the five-minute retry should be armed whatever happens to the log line | not executed | Cycle.TaskBackup, shown by Cycle.UnloggableFailureStopsSchedule | Cycle.TaskBackupCorrected, used by Cycle.Schedule |

=== FILE: config.dfy ===
/** A value that may be absent, as a field missing from config.json is. */
module Options {
  datatype Option<+T> = None | Some(value: T)
}

/** The `backup` section of config.json and the JavaScript defaulting the agent
    applies to it (index.js:80, 170, 202, 231, 297). Fields are strings or whole
    numbers; JavaScript's `||` treats a missing field, `""` and `0` as absent. */
module Config {
  import opened Options

  const MinuteMs: int := 60 * 1000
  const DayMs: int := 1000 * 60 * 60 * 24
  const DefaultRetentionDays: int := 30
  const DefaultCooldownMinutes: int := 10
  /** The retry delay after an exception escaped a cycle (index.js:304). */
  const FallbackDelayMs: int := 5 * 60 * 1000

  datatype BackupConfig = BackupConfig(
    host: Option<string>,
    user: Option<string>,
    password: Option<string>,
    database: Option<string>,
    retentionDays: Option<int>,
    cooldown: Option<int>)

  /** The `backup` value as loaded: anything but a non-null object (a missing
      section, `null`, a number, a string) fails `!backup || typeof backup != 'object'`. */
  datatype ConfigValue = NotAnObject | Object(config: BackupConfig)

  predicate Truthy(v: Option<string>) { v.Some? && v.value != "" }

  predicate FalsyNumber(v: Option<int>) { v.None? || v.value == 0 }

  /** `v || fallback` on a numeric field. */
  function NumberOr(v: Option<int>, fallback: int): int
  {
    if FalsyNumber(v) then fallback else v.value
  }

  /** `backup.retentionDays || 30` (index.js:170). */
  function RetentionDays(c: BackupConfig): (days: int)
    ensures days != 0
    ensures c.retentionDays.None? ==> days == DefaultRetentionDays
    ensures c.retentionDays == Some(0) ==> days == DefaultRetentionDays
    ensures c.retentionDays.Some? && c.retentionDays.value != 0 ==> days == c.retentionDays.value
  {
    NumberOr(c.retentionDays, DefaultRetentionDays)
  }

  /** `backup.cooldown || 10`, the interval in minutes (index.js:231, 297). */
  function CooldownMinutes(c: BackupConfig): (minutes: int)
    ensures minutes != 0
    ensures c.cooldown.None? ==> minutes == DefaultCooldownMinutes
    ensures c.cooldown == Some(0) ==> minutes == DefaultCooldownMinutes
    ensures c.cooldown.Some? && c.cooldown.value != 0 ==> minutes == c.cooldown.value
  {
    NumberOr(c.cooldown, DefaultCooldownMinutes)
  }

  /** `Math.max(1, backup.cooldown || 10) * 60 * 1000`: the delay before the next
      cycle, never under one minute (index.js:297). */
  function RescheduleDelayMs(c: BackupConfig): (ms: int)
    ensures ms >= MinuteMs && ms % MinuteMs == 0
    ensures CooldownMinutes(c) >= 1 ==> ms == CooldownMinutes(c) * MinuteMs
    ensures CooldownMinutes(c) < 1 ==> ms == MinuteMs
  {
    var minutes := CooldownMinutes(c);
    (if minutes < 1 then 1 else minutes) * MinuteMs
  }

  /** The next-run time the report announces: the backup instant plus
      `(backup.cooldown || 10)` minutes, without the one-minute floor (index.js:231). */
  function NextRunMs(c: BackupConfig, takenAtMs: int): (t: int)
    ensures t - takenAtMs == CooldownMinutes(c) * MinuteMs
    ensures t != takenAtMs
  {
    takenAtMs + CooldownMinutes(c) * MinuteMs
  }

  /** The announced next run is exactly one scheduling delay after the backup if
      and only if the cooldown is at least one minute; a negative cooldown
      announces a time in the past while the timer waits one minute. */
  lemma NextRunMatchesDelay(c: BackupConfig, takenAtMs: int)
    ensures NextRunMs(c, takenAtMs) - takenAtMs == RescheduleDelayMs(c) <==> CooldownMinutes(c) >= 1
  {
  }

  /** The check `taskBackup` makes before anything else (index.js:202). */
  predicate ValidForTask(v: ConfigValue)
  {
    v.Object? && Truthy(v.config.database)
  }

  /** The stricter check `executeBackup` makes (index.js:80). */
  predicate ValidForBackup(v: ConfigValue)
  {
    v.Object? && Truthy(v.config.host) && Truthy(v.config.database) && Truthy(v.config.user)
  }

  /** Every configuration `executeBackup` accepts passes `taskBackup`'s check, but not
      conversely: a configuration naming only a database passes the first check and
      fails the second. */
  lemma BackupCheckIsStricter(v: ConfigValue)
    ensures ValidForBackup(v) ==> ValidForTask(v)
    ensures var only := Object(BackupConfig(None, None, None, Some("db"), None, None));
      ValidForTask(only) && !ValidForBackup(only)
  {
  }
}

=== FILE: cycle.dfy ===
/** One backup cycle, `taskBackup` (index.js:200-306): sweep old backups, make a
    new one, hand it to the notification channel, and decide when the next cycle
    runs. The channel, like every other outside effect, is an outcome the caller
    supplies; the timer is the returned decision. */
module Cycle {
  import opened Options
  import opened Sanitizer
  import opened Paths
  import opened Config
  import opened Effects
  import opened Retention
  import opened Pipeline

  /** What the notification channel does: `channels.fetch` throws, the channel is
      missing or not a text channel, `send` throws, or `send` succeeds. */
  datatype Delivery = FetchFails | NotTextChannel | SendFails | SendOk

  /** Everything the outside world decides during one cycle: which log appends
      fail, the sweep's clock and listing, the backup's clock and outcomes, and the
      channel. */
  datatype Env = Env(
    failing: set<nat>,
    nowMs: int,
    listing: Listing,
    clock: Clock,
    outcomes: Outcomes,
    delivery: Delivery)

  /** How a cycle ends: it returns without arming a timer, arms one for `delayMs`,
      or its promise rejects before any timer is armed. */
  datatype Next = Idle | RunAfter(delayMs: int) | Rejected

  datatype Cycled = Cycled(world: World, next: Next)

  /** The largest distance from the epoch, in milliseconds, a JavaScript `Date`
      can hold; beyond it `new Date(t)` is an invalid date. */
  const MaxDateMs: int := 8_640_000_000_000_000

  predicate InDateRange(t: int)
  {
    -MaxDateMs <= t <= MaxDateMs
  }

  /** The report is handed over exactly when the channel is a text channel, the
      archive is still there for `statSync`, the announced next run is a valid
      date that `Intl.DateTimeFormat` can format (index.js:231-239), and `send`
      succeeds. */
  predicate Sent(w: World, zipFile: Path, c: BackupConfig, date: Clock, d: Delivery)
  {
    d == SendOk && zipFile in w.fs && InDateRange(NextRunMs(c, date.epochMs))
  }

  /** What the channel receives (index.js:216-281): the database, the archive's
      file name, its size, the backup instant and the announced next run. */
  function ReportFor(database: string, c: BackupConfig, zipFile: Path, date: Clock, size: nat): Report
  {
    Report(database, Basename(Render(zipFile)), size, date.epochMs, NextRunMs(c, date.epochMs))
  }

  /** The inner `try` of index.js:210-291. Any failure in it, including a failed
      log append after a successful send, is logged as a delivery failure and
      does not escape, unless that last append fails too. */
  function Deliver(w: World, failing: set<nat>, database: string, c: BackupConfig, zipFile: Path, date: Clock, size: nat, d: Delivery)
    : (s: Step<()>)
    ensures s.world.fs == w.fs && s.world.appends >= w.appends
    ensures s.world.outbox == w.outbox + if Sent(w, zipFile, c, date, d) then [ReportFor(database, c, zipFile, date, size)] else []
    ensures NoFailureFrom(failing, w.appends) ==> s.Normal?
    ensures NoFailureFrom(failing, w.appends) ==>
      s.world.log == w.log + [if Sent(w, zipFile, c, date, d) then DeliverySent(size)
                              else if d == NotTextChannel then ChannelMissing
                              else DeliveryFailed]
  {
    var attempt :=
      match d
      case FetchFails => Thrown(w)
      case NotTextChannel => Append(w, failing, ChannelMissing)
      case _ =>
        if zipFile !in w.fs then Thrown(w)
        else if !InDateRange(NextRunMs(c, date.epochMs)) then Thrown(w)
        else if d == SendFails then Thrown(w)
        else Append(w.(outbox := w.outbox + [ReportFor(database, c, zipFile, date, size)]), failing, DeliverySent(size));
    match attempt
    case Normal(w1, _) => Normal(w1, ())
    case Thrown(w1) => Append(w1, failing, DeliveryFailed)
  }

  /** When an append fails inside the delivery's `try`, the `catch` logs a
      delivery failure instead, and nothing escapes unless that line fails too:
      an escaping delivery has written nothing, and its last append failed. */
  lemma DeliveryFailuresCaught(w: World, failing: set<nat>, database: string, c: BackupConfig, zipFile: Path, date: Clock, size: nat, d: Delivery)
    ensures var s := Deliver(w, failing, database, c, zipFile, date, size, d);
      (Sent(w, zipFile, c, date, d) || d == NotTextChannel) && w.appends in failing && w.appends + 1 !in failing ==>
        s == Normal(w.(log := w.log + [DeliveryFailed], appends := w.appends + 2,
                       outbox := s.world.outbox), ())
    ensures var s := Deliver(w, failing, database, c, zipFile, date, size, d);
      Sent(w, zipFile, c, date, d) || d == NotTextChannel ==>
        (s.Normal? <==> w.appends !in failing || w.appends + 1 !in failing)
    ensures var s := Deliver(w, failing, database, c, zipFile, date, size, d);
      !Sent(w, zipFile, c, date, d) && d != NotTextChannel ==>
        && (s.Normal? <==> w.appends !in failing)
        && s.world.log == if s.Normal? then w.log + [DeliveryFailed] else w.log
    ensures var s := Deliver(w, failing, database, c, zipFile, date, size, d);
      s.Thrown? ==> s.world.log == w.log && s.world.appends >= 1 && s.world.appends - 1 in failing
  {
  }

  /** The body of the outer `try` (index.js:201-298). A configuration without a
      database ends the cycle with no timer; otherwise, once the sweep, the backup
      and the delivery have not thrown, the next cycle is due after the configured
      delay. */
  function CycleBody(w: World, name: SourceId, v: ConfigValue, env: Env): (s: Step<Next>)
    ensures s.world.appends >= w.appends
    ensures !ValidForTask(v) ==> s == Normal(w, Idle)
    ensures ValidForTask(v) && s.Normal? ==> s.value == RunAfter(RescheduleDelayMs(v.config))
  {
    if !ValidForTask(v) then Normal(w, Idle)
    else
      var c := v.config;
      match Sweep(w, env.failing, env.listing, env.nowMs, name, c)
      case Thrown(w1) => Thrown(w1)
      case Normal(w1, _) =>
        match ExecuteBackup(w1, env.failing, name, v, env.clock, env.outcomes)
        case Thrown(w2) => Thrown(w2)
        case Normal(w2, r) =>
          var reported :=
            if r.Backup? && r.zipDir != "" then
              Deliver(w2, env.failing, c.database.value, c, PathsFor(name, env.clock).zipFile, r.date,
                      env.outcomes.zipSize.value, env.delivery)
            else Append(w2, env.failing, BackupNotCreated);
          match reported
          case Thrown(w3) => Thrown(w3)
          case Normal(w3, _) => Normal(w3, RunAfter(RescheduleDelayMs(c)))
  }

  /** `taskBackup()` as written: the `catch` awaits its log line before arming the
      five-minute retry, so when that append fails the promise rejects and no
      further cycle is ever scheduled. */
  function TaskBackup(w: World, name: SourceId, v: ConfigValue, env: Env): (r: Cycled)
    ensures !ValidForTask(v) ==> r == Cycled(w, Idle)
    ensures ValidForTask(v) ==> r.next != Idle
    ensures r.next.RunAfter? ==> r.next.delayMs >= MinuteMs
    ensures r.next.Rejected? ==> !NoFailureFrom(env.failing, w.appends)
  {
    match CycleBody(w, name, v, env)
    case Normal(w1, next) => Cycled(w1, next)
    case Thrown(w1) =>
      match Append(w1, env.failing, CycleUnexpected)
      case Normal(w2, _) => Cycled(w2, RunAfter(FallbackDelayMs))
      case Thrown(w2) => Cycled(w2, Rejected)
  }

  /** `taskBackup()` as its comment at index.js:303 intends: the retry is armed
      even when the log line about the failure cannot be written. */
  function TaskBackupCorrected(w: World, name: SourceId, v: ConfigValue, env: Env): (r: Cycled)
    ensures !ValidForTask(v) ==> r == Cycled(w, Idle)
    ensures ValidForTask(v) ==> r.next.RunAfter?
    ensures r.next.RunAfter? ==> MinuteMs <= r.next.delayMs
    ensures r.next.RunAfter? && r.next.delayMs != FallbackDelayMs ==> r.next.delayMs == RescheduleDelayMs(v.config)
  {
    match CycleBody(w, name, v, env)
    case Normal(w1, next) => Cycled(w1, next)
    case Thrown(w1) => Cycled(Append(w1, env.failing, CycleUnexpected).world, RunAfter(FallbackDelayMs))
  }

  /** Where a chain of cycles leaves the world, and the delay each cycle
      requested, in order. */
  datatype Chain = Chain(world: World, delays: seq<int>)

  lemma DelaysPrepend(d: int, ds: seq<int>, a: int, b: int)
    requires d == a || d == b
    requires forall i :: 0 <= i < |ds| ==> ds[i] == a || ds[i] == b
    ensures forall i :: 0 <= i < |[d] + ds| ==> ([d] + ds)[i] == a || ([d] + ds)[i] == b
  {
    assert forall i :: 0 < i < |[d] + ds| ==> ([d] + ds)[i] == ds[i - 1];
  }

  /** The first cycle runs when the bot is ready; each later one runs when the
      timer the previous one armed fires, with the next outcomes of `envs`. The
      delays the timers were armed with are returned, in order. With the retry
      always armed, a configuration with a database keeps the chain alive for
      every cycle, and each delay is either the configured one or the fallback. */
  function Schedule(w: World, name: SourceId, v: ConfigValue, envs: seq<Env>): (r: Chain)
    ensures ValidForTask(v) ==> |r.delays| == |envs|
    ensures !ValidForTask(v) ==> r == Chain(w, [])
    ensures forall i :: 0 <= i < |r.delays| ==> r.delays[i] == RescheduleDelayMs(v.config) || r.delays[i] == FallbackDelayMs
    decreases |envs|
  {
    if envs == [] then Chain(w, [])
    else
      var c := TaskBackupCorrected(w, name, v, envs[0]);
      match c.next
      case RunAfter(d) =>
        var rest := Schedule(c.world, name, v, envs[1..]);
        DelaysPrepend(d, rest.delays, RescheduleDelayMs(v.config), FallbackDelayMs);
        Chain(rest.world, [d] + rest.delays)
      case _ => Chain(c.world, [])
  }

  /** A cycle in which no log append fails and every listed entry can be
      `stat`ed arms the configured delay, at least one minute, whatever the
      backup and the channel did: their failures are caught and logged. */
  lemma CompleteCycleReschedules(w: World, name: SourceId, v: ConfigValue, env: Env)
    requires ValidForTask(v)
    requires NoFailureFrom(env.failing, w.appends)
    requires BackupRoot(name) !in w.fs || (env.listing.Listed? && AllStatted(env.listing.entries))
    ensures TaskBackup(w, name, v, env).next == RunAfter(RescheduleDelayMs(v.config))
    ensures RescheduleDelayMs(v.config) >= MinuteMs
  {
    var swept := Sweep(w, env.failing, env.listing, env.nowMs, name, v.config);
    assert swept.Normal? && NoFailureFrom(env.failing, swept.world.appends);
    SweptCycleReschedules(w, name, v, env);
  }

  /** Once the sweep has completed and no later append fails, the cycle arms the
      configured delay, whatever the backup and the channel did. */
  lemma SweptCycleReschedules(w: World, name: SourceId, v: ConfigValue, env: Env)
    requires ValidForTask(v)
    requires var swept := Sweep(w, env.failing, env.listing, env.nowMs, name, v.config);
      swept.Normal? && NoFailureFrom(env.failing, swept.world.appends)
    ensures TaskBackup(w, name, v, env).next == RunAfter(RescheduleDelayMs(v.config))
  {
    var swept := Sweep(w, env.failing, env.listing, env.nowMs, name, v.config);
    var b := ExecuteBackup(swept.world, env.failing, name, v, env.clock, env.outcomes);
    assert b.Normal? && NoFailureFrom(env.failing, b.world.appends);
    assert CycleBody(w, name, v, env).Normal?;
  }

  /** An overdue entry whose announcing line cannot be written is still removed;
      the sweep's `catch` logs the failure and the cycle goes on to the backup and
      arms the configured delay, not the retry. */
  lemma AnnouncementFailureStillReschedules(w: World, name: SourceId, v: ConfigValue, env: Env, e: Entry)
    requires ValidForTask(v) && BackupRoot(name) in w.fs
    requires env.listing == Listed([e]) && e.removable
    requires e.mtimeMs.Some? && Expired(env.nowMs, e.mtimeMs.value, RetentionDays(v.config))
    requires env.failing == {w.appends}
    ensures TaskBackup(w, name, v, env).next == RunAfter(RescheduleDelayMs(v.config))
  {
    AnnouncementFailureIsCaught(w, BackupRoot(name), e, env.nowMs, RetentionDays(v.config));
    SweptCycleReschedules(w, name, v, env);
  }

  /** Whatever escapes the body of the cycle is caught: when the catch's line can be
      written the retry is armed after exactly five minutes, and the corrected cycle
      arms it in every case. A body that completes arms what it returned, in both. */
  lemma EscapedExceptionArmsRetry(w: World, name: SourceId, v: ConfigValue, env: Env)
    ensures var b := CycleBody(w, name, v, env);
      b.Thrown? && b.world.appends !in env.failing ==>
        TaskBackup(w, name, v, env)
          == Cycled(b.world.(log := b.world.log + [CycleUnexpected], appends := b.world.appends + 1), RunAfter(FallbackDelayMs))
    ensures CycleBody(w, name, v, env).Thrown? ==> TaskBackupCorrected(w, name, v, env).next == RunAfter(FallbackDelayMs)
    ensures var b := CycleBody(w, name, v, env);
      b.Normal? ==> TaskBackup(w, name, v, env) == TaskBackupCorrected(w, name, v, env) == Cycled(b.world, b.value)
  {
  }

  /** An entry whose `stat` throws ends the sweep; the cycle logs the unexpected
      error and arms the five-minute retry, without having removed anything. */
  lemma StatFailureRetries(w: World, name: SourceId, v: ConfigValue, env: Env)
    requires ValidForTask(v) && BackupRoot(name) in w.fs
    requires env.listing.Listed? && env.listing.entries != [] && env.listing.entries[0].mtimeMs.None?
    requires NoFailureFrom(env.failing, w.appends)
    ensures TaskBackup(w, name, v, env)
      == Cycled(w.(log := w.log + [CycleUnexpected], appends := w.appends + 1), RunAfter(FallbackDelayMs))
  {
  }

  /** A failing append inside the backup escapes it when it is the line refusing
      the configuration, which lies outside the backup's `try`: the cycle catches
      it and arms the five-minute retry. */
  lemma UnloggedRefusalRetries(w: World, name: SourceId, env: Env)
    requires BackupRoot(name) !in w.fs
    requires env.failing == {w.appends}
    ensures var v := Object(BackupConfig(None, None, None, Some("db"), None, None));
      TaskBackup(w, name, v, env)
        == Cycled(w.(log := w.log + [CycleUnexpected], appends := w.appends + 2), RunAfter(FallbackDelayMs))
  {
  }

  /** An exception escaping the cycle, such as `readdir` throwing, is logged and
      arms the five-minute retry when that log line can be written. */
  lemma EscapedExceptionRetries(w: World, name: SourceId, v: ConfigValue, env: Env)
    requires ValidForTask(v)
    requires BackupRoot(name) in w.fs && env.listing == ListingFails
    requires w.appends !in env.failing
    ensures TaskBackup(w, name, v, env)
      == Cycled(w.(log := w.log + [CycleUnexpected], appends := w.appends + 1), RunAfter(FallbackDelayMs))
  {
  }

  /** A configuration naming only a database passes the cycle's check and fails
      the backup's: the cycle logs the refusal and that no backup was made, and
      still arms the configured delay. */
  lemma DatabaseOnlyConfigStillReschedules(w: World, name: SourceId, env: Env)
    requires BackupRoot(name) !in w.fs
    requires NoFailureFrom(env.failing, w.appends)
    ensures var v := Object(BackupConfig(None, None, None, Some("db"), None, None));
      TaskBackup(w, name, v, env)
        == Cycled(w.(log := w.log + [ConfigInvalid, BackupNotCreated], appends := w.appends + 2),
                  RunAfter(DefaultCooldownMinutes * MinuteMs))
  {
  }

  /** The two versions differ only where the as-written one rejects. */
  lemma CorrectedAgreesUnlessRejected(w: World, name: SourceId, v: ConfigValue, env: Env)
    ensures TaskBackup(w, name, v, env).next.Rejected? <==>
      CycleBody(w, name, v, env).Thrown? && CycleBody(w, name, v, env).world.appends in env.failing
    ensures !TaskBackup(w, name, v, env).next.Rejected? ==>
      TaskBackup(w, name, v, env) == TaskBackupCorrected(w, name, v, env)
  {
  }

  /** The input that shows the missing retry: `readdir` throws and the log file
      cannot be appended to. As written the cycle rejects and no timer is armed;
      corrected, the retry is armed after five minutes. */
  lemma UnloggableFailureStopsSchedule(w: World, name: SourceId, v: ConfigValue, env: Env)
    requires ValidForTask(v)
    requires BackupRoot(name) in w.fs && env.listing == ListingFails
    requires env.failing == {w.appends}
    ensures TaskBackup(w, name, v, env).next == Rejected
    ensures TaskBackupCorrected(w, name, v, env).next == RunAfter(FallbackDelayMs)
  {
  }

  /** A send that succeeds hands over one report and logs one line. */
  lemma DeliverySucceeds(w: World, failing: set<nat>, database: string, c: BackupConfig, zipFile: Path, date: Clock, size: nat)
    requires zipFile in w.fs && NoFailureFrom(failing, w.appends)
    requires InDateRange(NextRunMs(c, date.epochMs))
    ensures Deliver(w, failing, database, c, zipFile, date, size, SendOk)
      == Normal(World(w.fs, w.log + [DeliverySent(size)], w.appends + 1,
                      w.outbox + [ReportFor(database, c, zipFile, date, size)]), ())
  {
  }

  /** A `cooldown` so large, or so negative, that the announced next run is not a
      valid date makes its formatting throw: the `catch` logs a delivery failure
      and nothing is sent, though the channel and the send would have worked. */
  lemma FarNextRunNotSent(w: World, failing: set<nat>, database: string, c: BackupConfig, zipFile: Path, date: Clock, size: nat)
    requires zipFile in w.fs && NoFailureFrom(failing, w.appends)
    requires !InDateRange(NextRunMs(c, date.epochMs))
    ensures Deliver(w, failing, database, c, zipFile, date, size, SendOk)
      == Normal(w.(log := w.log + [DeliveryFailed], appends := w.appends + 1), ())
  {
  }

  /** Two hundred billion minutes, with the backup at the epoch, is such a cooldown. */
  lemma HugeCooldownExample(c: BackupConfig, date: Clock)
    requires c.cooldown == Some(200_000_000_000) && date.epochMs == 0
    ensures !InDateRange(NextRunMs(c, date.epochMs))
  {
  }

  lemma TwoAppends<T>(a: seq<T>, b: seq<T>, d: seq<T>, x: T, y: T)
    requires b == a + [x] && d == b + [y]
    ensures d == a + [x, y]
  {
  }

  /** The report sent for a run names the archive by its file name (index.js:258),
      not by its path, and carries the archive's size and the backup instant. */
  lemma ReportNamesArchive(database: string, c: BackupConfig, name: SourceId, clock: Clock, date: Clock, size: nat)
    ensures var p := PathsFor(name, clock);
      var r := ReportFor(database, c, p.zipFile, date, size);
      r.fileName == p.zipName && r.sizeBytes == size && r.takenAtMs == date.epochMs
  {
    var p := PathsFor(name, clock);
    PathsForLayout(name, clock);
    assert Render(p.zipFile) == Render(p.folder) + "/" + p.zipName;
    BasenameOfRender(p.zipFile);
  }

  /** A backup where every step succeeds leaves only the archive and logs its
      creation. */
  lemma BackupSucceeds(w: World, failing: set<nat>, name: SourceId, v: ConfigValue, clock: Clock, size: nat, o: Outcomes)
    requires ValidForBackup(v) && NoFailureFrom(failing, w.appends)
    requires size > 0 && o == Outcomes(true, true, true, Some(size), true, true)
    ensures var b := ExecuteBackup(w, failing, name, v, clock, o);
      var p := PathsFor(name, clock);
      && b == Normal(b.world, Backup(Render(p.zipFile), clock))
      && b.world.log == w.log + [BackupCreated(Render(p.zipFile))]
      && p.zipFile in b.world.fs && p.sqlFile !in b.world.fs
      && b.world.outbox == w.outbox && b.world.appends >= w.appends
  {
    NonEmptyArchiveSucceeds(w, failing, name, v, clock, o);
    BackupLeavesArchive(w, failing, name, v, clock, o);
  }

  /** Once the sweep leaves the world as it was and the backup names an archive,
      the cycle ends with the delivery's world and the configured delay. */
  lemma CycleDelivers(w: World, name: SourceId, v: ConfigValue, env: Env, bw: World, date: Clock)
    requires ValidForTask(v)
    requires Sweep(w, env.failing, env.listing, env.nowMs, name, v.config) == Normal(w, [])
    requires ExecuteBackup(w, env.failing, name, v, env.clock, env.outcomes)
      == Normal(bw, Backup(Render(PathsFor(name, env.clock).zipFile), date))
    requires Render(PathsFor(name, env.clock).zipFile) != "" && env.outcomes.zipSize.Some?
    ensures var d := Deliver(bw, env.failing, v.config.database.value, v.config, PathsFor(name, env.clock).zipFile,
                             date, env.outcomes.zipSize.value, env.delivery);
      d.Normal? ==> TaskBackup(w, name, v, env) == Cycled(d.world, RunAfter(RescheduleDelayMs(v.config)))
  {
  }

  /** A first cycle where everything succeeds: the archive is left on disk and the
      dump is not, the log gains the creation and delivery lines, the channel
      receives exactly one report, which names the archive by its file name, and
      the next cycle is due after the configured delay. */
  lemma SuccessfulCycle(w: World, name: SourceId, v: ConfigValue, env: Env, size: nat)
    requires ValidForBackup(v)
    requires NoFailureFrom(env.failing, w.appends)
    requires BackupRoot(name) !in w.fs
    requires size > 0 && env.outcomes == Outcomes(true, true, true, Some(size), true, true)
    requires env.delivery == SendOk && InDateRange(NextRunMs(v.config, env.clock.epochMs))
    ensures var r := TaskBackup(w, name, v, env);
      var p := PathsFor(name, env.clock);
      && r.next == RunAfter(RescheduleDelayMs(v.config))
      && p.zipFile in r.world.fs && p.sqlFile !in r.world.fs
      && r.world.log == w.log + [BackupCreated(Render(p.zipFile)), DeliverySent(size)]
      && r.world.outbox == w.outbox + [ReportFor(v.config.database.value, v.config, p.zipFile, env.clock, size)]
      && Basename(Render(p.zipFile)) == p.zipName
  {
    var p := PathsFor(name, env.clock);
    var c := v.config;
    var b := ExecuteBackup(w, env.failing, name, v, env.clock, env.outcomes);
    BackupSucceeds(w, env.failing, name, v, env.clock, size, env.outcomes);
    assert Render(p.zipFile) != "" && Basename(Render(p.zipFile)) == p.zipName by {
      PathsForLayout(name, env.clock);
      assert Render(p.zipFile) == Render(p.folder) + "/" + p.zipName;
      BasenameOfRender(p.zipFile);
    }
    var d := Deliver(b.world, env.failing, c.database.value, c, p.zipFile, env.clock, size, SendOk);
    DeliverySucceeds(b.world, env.failing, c.database.value, c, p.zipFile, env.clock, size);
    assert Sweep(w, env.failing, env.listing, env.nowMs, name, c) == Normal(w, []);
    CycleDelivers(w, name, v, env, b.world, env.clock);
    assert TaskBackup(w, name, v, env) == Cycled(d.world, RunAfter(RescheduleDelayMs(c)));
    assert d.world.fs == b.world.fs;
    TwoAppends(w.log, b.world.log, d.world.log, BackupCreated(Render(p.zipFile)), DeliverySent(size));
    assert d.world.outbox == w.outbox + [ReportFor(c.database.value, c, p.zipFile, env.clock, size)];
  }
}

=== FILE: effects.dfy ===
/** The state a backup cycle acts on and the audit log it writes (index.js:57-66).
    The filesystem is the set of paths that exist; the log of this server is the
    sequence of events appended to `./logs/<name>_backup.log`; the outbox is what
    the notification channel received. Every append is numbered, and the caller
    says which numbers fail: a failing `appendFile` rejects, and the rejection
    propagates like any other exception. */
module Effects {
  import opened Options
  import opened Paths

  /** What one log line records. The wording of the message, including its level
      tag, is not modelled. */
  datatype Event =
    | ConfigInvalid                    // index.js:82
    | DumpFailed                       // index.js:110
    | ArchiveFailed                    // index.js:129
    | ArchiveEmpty                     // index.js:136
    | SqlNotRemoved                    // index.js:150
    | BackupCreated(zipDir: string)    // index.js:154
    | BackupUnexpected                 // index.js:157
    | OldBackupRemoved(path: string)   // index.js:183
    | OldBackupRemoveFailed            // index.js:185
    | DeliverySent(sizeBytes: nat)     // index.js:283
    | ChannelMissing                   // index.js:285
    | DeliveryFailed                   // index.js:289
    | BackupNotCreated                 // index.js:293
    | CycleUnexpected                  // index.js:300

  /** One appended line: `[${timestamp}] ${message}` and a newline. */
  function LogLine(timestamp: string, message: string): string
  {
    "[" + timestamp + "] " + message + "\n"
  }

  function IndexOf(s: string, c: char): (k: Option<nat>)
    ensures k.Some? ==> k.value < |s| && s[k.value] == c && c !in s[..k.value]
    ensures k.None? ==> c !in s
  {
    if s == [] then None
    else if s[0] == c then Some(0)
    else
      match IndexOf(s[1..], c)
      case None => None
      case Some(k) =>
        assert s[..k + 1] == [s[0]] + s[1..][..k];
        Some(k + 1)
  }

  /** Splits a log line back into its timestamp and its message. */
  function ParseLogLine(line: string): Option<(string, string)>
  {
    if |line| < 4 || line[0] != '[' || line[|line| - 1] != '\n' then None
    else
      match IndexOf(line, ']')
      case None => None
      case Some(k) =>
        if k + 2 <= |line| - 1 && line[k + 1] == ' ' then Some((line[1..k], line[k + 2..|line| - 1]))
        else None
  }

  /** A line written with a timestamp free of ']' (every `toISOString()` value is)
      reads back as the timestamp and the message it was written with. */
  lemma LogLineRoundTrip(timestamp: string, message: string)
    requires ']' !in timestamp
    ensures ParseLogLine(LogLine(timestamp, message)) == Some((timestamp, message))
  {
    var line := LogLine(timestamp, message);
    var k := |timestamp| + 1;
    assert line[k] == ']';
    assert line[..k] == "[" + timestamp;
    assert ']' !in line[..k];
    assert IndexOf(line, ']') == Some(k);
    assert line[1..k] == timestamp;
    assert line[k + 2..|line| - 1] == message;
  }

  lemma IsoTimestampHasNoBracket(u: UtcTime)
    ensures ']' !in IsoTimestamp(u)
  {
    NoBracketInIsoText(IsoTimestamp(u));
  }

  lemma NoBracketInIsoText(s: string)
    requires IsIsoText(s)
    ensures ']' !in s
  {
    assert !IsIsoChar(']');
  }

  /** What the notification channel is handed with the archive (index.js:245-281):
      the database name, the archive's file name, its size, the backup instant and
      the announced next run. */
  datatype Report = Report(
    database: string, fileName: string, sizeBytes: nat, takenAtMs: int, nextRunMs: int)

  datatype World = World(fs: set<Path>, log: seq<Event>, appends: nat, outbox: seq<Report>)

  /** A step either returns normally with a value or throws (a rejected promise). */
  datatype Step<T> = Normal(world: World, value: T) | Thrown(world: World)

  /** `await logBackup(message)`: append number `w.appends` fails exactly when it
      is in `failing`; a failed append writes nothing and throws. */
  function Append(w: World, failing: set<nat>, e: Event): (s: Step<()>)
    ensures s.world.fs == w.fs && s.world.outbox == w.outbox
    ensures s.world.appends == w.appends + 1
    ensures s.Normal? <==> w.appends !in failing
    ensures s.world.log == if s.Normal? then w.log + [e] else w.log
  {
    if w.appends in failing then Thrown(w.(appends := w.appends + 1))
    else Normal(w.(log := w.log + [e], appends := w.appends + 1), ())
  }

  /** Continues a step that returned normally with the value `v`. */
  function Returning<T>(s: Step<()>, v: T): (r: Step<T>)
    ensures r.world == s.world && r.Normal? == s.Normal?
    ensures r.Normal? ==> r.value == v
  {
    match s
    case Normal(w, _) => Normal(w, v)
    case Thrown(w) => Thrown(w)
  }

  /** No append numbered `from` or later fails. */
  predicate NoFailureFrom(failing: set<nat>, from: nat)
  {
    forall k :: k in failing ==> k < from
  }
}

=== FILE: paths.dfy ===
/** Where a backup run puts its files (index.js:88-92) and where the log goes
    (index.js:58-59). Paths are lists of segments relative to the agent's working
    directory; `path.join` normalises the leading "./" away and drops the empty
    segment an empty server name would leave, which `Child` reproduces. */
module Paths {
  import opened Text
  import opened Sanitizer
  import opened Options

  type Path = seq<string>

  /** `path.join(dir, seg)` for a segment without '/' and other than "." or "..". */
  function Child(dir: Path, seg: string): Path
  {
    if seg == "" then dir else dir + [seg]
  }

  /** The path as `path.join` prints it: segments separated by '/'. */
  function Render(p: Path): string
  {
    if p == [] then ""
    else if |p| == 1 then p[0]
    else Render(p[..|p| - 1]) + "/" + p[|p| - 1]
  }

  /** `path.basename(s)` for a path that does not end in '/': what follows the
      last '/'. Node drops a trailing '/' first; this function returns "" then,
      which no caller meets, since rendered paths never end in '/'. */
  function Basename(s: string): string
  {
    if s == [] || s[|s| - 1] == '/' then [] else Basename(s[..|s| - 1]) + [s[|s| - 1]]
  }

  lemma {:induction false} BasenameOfSegment(s: string)
    requires '/' !in s
    ensures Basename(s) == s
    decreases |s|
  {
    if s != [] {
      BasenameOfSegment(s[..|s| - 1]);
    }
  }

  lemma {:induction false} BasenameAfterSlash(a: string, s: string)
    requires '/' !in s
    ensures Basename(a + "/" + s) == s
    decreases |s|
  {
    if s == [] {
      assert a + "/" + s == a + "/";
    } else {
      var t := a + "/" + s;
      assert t[..|t| - 1] == a + "/" + s[..|s| - 1];
      BasenameAfterSlash(a, s[..|s| - 1]);
    }
  }

  /** The file name of a rendered path is its last segment. */
  lemma BasenameOfRender(p: Path)
    requires |p| >= 1 && '/' !in p[|p| - 1]
    ensures Basename(Render(p)) == p[|p| - 1]
  {
    if |p| == 1 {
      BasenameOfSegment(p[0]);
    } else {
      BasenameAfterSlash(Render(p[..|p| - 1]), p[|p| - 1]);
    }
  }

  /** The date parts `getFullYear()`, `getMonth() + 1` and `getDate()` of the
      local clock. */
  datatype LocalDate = LocalDate(year: int, month: nat, day: nat)

  /** The UTC fields `toISOString()` prints. */
  datatype UtcTime = UtcTime(year: int, month: nat, day: nat,
                             hour: nat, minute: nat, second: nat, millis: nat)

  /** One reading of `new Date()`: the local date, the UTC time and the epoch
      milliseconds of the same instant (the time zone relating them is not modelled). */
  datatype Clock = Clock(local: LocalDate, utc: UtcTime, epochMs: int)

  /** The ranges a JavaScript `Date` guarantees for its fields. */
  predicate ValidLocal(d: LocalDate) { 1 <= d.month <= 12 && 1 <= d.day <= 31 }

  predicate ValidUtc(u: UtcTime)
  {
    && -271821 <= u.year <= 275760
    && 1 <= u.month <= 12 && 1 <= u.day <= 31
    && u.hour < 24 && u.minute < 60 && u.second < 60 && u.millis < 1000
  }

  predicate ValidClock(c: Clock) { ValidLocal(c.local) && ValidUtc(c.utc) }

  /** The folder's date segment: `${year}-${MM}-${DD}`. */
  function DateSegment(d: LocalDate): string
  {
    IntToDec(d.year) + "-" + Pad(d.month, 2) + "-" + Pad(d.day, 2)
  }

  /** Reads a date segment back: the year before the sixth-to-last character,
      then '-', two digits of month, '-', two digits of day. */
  function ParseDateSegment(s: string): Option<LocalDate>
  {
    if |s| < 7 || s[|s| - 6] != '-' || s[|s| - 3] != '-' then None
    else
      var y, m, dd := s[..|s| - 6], s[|s| - 5..|s| - 3], s[|s| - 2..];
      if !IsIntText(y) || !AllDigits(m) || !AllDigits(dd) then None
      else Some(LocalDate(IntValue(y), DecValue(m), DecValue(dd)))
  }

  /** The date segment reads back as the date it was made from, so month and day
      are always two digits and the year is the whole leading part. */
  lemma DateSegmentRoundTrip(d: LocalDate)
    requires ValidLocal(d)
    ensures ParseDateSegment(DateSegment(d)) == Some(d)
  {
    var y, m, dd := IntToDec(d.year), Pad(d.month, 2), Pad(d.day, 2);
    assert |m| == 2 && |dd| == 2;
    var s := DateSegment(d);
    assert s == y + "-" + m + "-" + dd;
    DashedFields(y, m, dd);
    assert AllDigits(m) && DecValue(m) == d.month;
    assert AllDigits(dd) && DecValue(dd) == d.day;
    assert IsIntText(y) && IntValue(y) == d.year;
  }

  lemma DashedFields(y: string, m: string, dd: string)
    requires |m| == 2 && |dd| == 2
    ensures var s := y + "-" + m + "-" + dd;
      && |s| == |y| + 6
      && s[|s| - 6] == '-' && s[|s| - 3] == '-'
      && s[|s| - 5..|s| - 3] == m && s[|s| - 2..] == dd && s[..|s| - 6] == y
  {
    var s := y + "-" + m + "-" + dd;
    assert s[..|s| - 6] == y;
    assert s[|s| - 5..|s| - 3] == m;
    assert s[|s| - 2..] == dd;
  }

  predicate IsIsoChar(c: char)
  {
    IsDigit(c) || c == '-' || c == '+' || c == 'T' || c == ':' || c == '.' || c == 'Z'
  }

  /** Text drawn from the alphabet of `toISOString()`. */
  predicate IsIsoText(s: string) { forall c :: c in s ==> IsIsoChar(c) }

  lemma DigitsAreIsoText(s: string)
    requires AllDigits(s)
    ensures IsIsoText(s)
  {
  }

  lemma IsoConcat(a: string, b: string)
    requires IsIsoText(a) && IsIsoText(b)
    ensures IsIsoText(a + b)
  {
    assert forall c :: c in a + b ==> c in a || c in b;
  }

  /** Two zero-padded numbers joined by a separator from the ISO alphabet. */
  function Joined(a: nat, sep: char, b: nat, width: nat): (r: string)
    requires IsIsoChar(sep)
    ensures IsIsoText(r)
  {
    var x, y := Pad(a, 2), Pad(b, width);
    DigitsAreIsoText(x);
    DigitsAreIsoText(y);
    IsoConcat(x, [sep]);
    IsoConcat(x + [sep], y);
    x + [sep] + y
  }

  /** The year as `toISOString()` prints it: four digits, or a sign and six digits
      outside 0..9999. */
  function IsoYear(y: int): (r: string)
    ensures IsIsoText(r)
  {
    if 0 <= y <= 9999 then
      DigitsAreIsoText(Pad(y, 4));
      Pad(y, 4)
    else
      var digits := Pad(if y < 0 then -y else y, 6);
      var sign := if y < 0 then "-" else "+";
      DigitsAreIsoText(digits);
      IsoConcat(sign, digits);
      sign + digits
  }

  /** `toISOString()`: `YYYY-MM-DDTHH:mm:ss.sssZ`. */
  function IsoTimestamp(u: UtcTime): (r: string)
    ensures IsIsoText(r)
  {
    var year, monthDay := IsoYear(u.year), Joined(u.month, '-', u.day, 2);
    var hourMinute, secondMillis := Joined(u.hour, ':', u.minute, 2), Joined(u.second, '.', u.millis, 3);
    IsoConcat(year, "-");
    IsoConcat(year + "-", monthDay);
    var date := year + "-" + monthDay;
    IsoConcat(hourMinute, ":");
    IsoConcat(hourMinute + ":", secondMillis);
    var time := hourMinute + ":" + secondMillis;
    IsoConcat(date, "T");
    IsoConcat(date + "T", time);
    IsoConcat(date + "T" + time, "Z");
    date + "T" + time + "Z"
  }

  /** The dump file: `${name}-${iso.replace(/:/g, '-')}.sql`. */
  function DumpFileName(name: SourceId, iso: string): string
  {
    name + "-" + ReplaceEvery(iso, ':', '-') + ".sql"
  }

  /** The archive: `fileName.replace('.sql', '.zip')`. */
  function ZipFileName(fileName: string): string
  {
    ReplaceFirst(fileName, ".sql", ".zip")
  }

  /** What replacing the colons leaves of a timestamp: no ':', no '/', no 's'. */
  lemma ReplacedTimestamp(iso: string)
    requires IsIsoText(iso)
    ensures var r := ReplaceEvery(iso, ':', '-'); ':' !in r && '/' !in r && 's' !in r
  {
    var r := ReplaceEvery(iso, ':', '-');
    forall i | 0 <= i < |r|
      ensures r[i] != ':' && r[i] != '/' && r[i] != 's'
    {
      assert iso[i] in iso;
    }
  }

  lemma {:induction false} DumpNameParts(name: SourceId, r: string)
    requires ':' !in r && '/' !in r
    ensures var f := name + "-" + r + ".sql";
      && |f| > 4 && f[|f| - 4..] == ".sql" && ':' !in f && '/' !in f
  {
    var f := name + "-" + r + ".sql";
    assert f[|f| - 4..] == ".sql";
    assert forall c :: c in f ==> c in name || c == '-' || c in r || c in ".sql";
  }

  /** The dump file name is a single path segment without ':' that ends in ".sql". */
  lemma DumpFileNameShape(name: SourceId, u: UtcTime)
    ensures var f := DumpFileName(name, IsoTimestamp(u));
      && |f| > 4 && f[|f| - 4..] == ".sql"
      && ':' !in f && '/' !in f
  {
    var iso := IsoTimestamp(u);
    ReplacedTimestamp(iso);
    DumpNameParts(name, ReplaceEvery(iso, ':', '-'));
  }

  /** In `name-r.sql` the only ".sql" is the last one when `name` has no '.' and
      `r` has no 's'. */
  lemma {:induction false} OnlyFinalSql(name: SourceId, r: string)
    requires 's' !in r
    ensures var f := name + "-" + r + ".sql";
      && OccursAt(f, ".sql", |f| - 4)
      && forall i: nat :: i < |f| - 4 ==> !OccursAt(f, ".sql", i)
  {
    var f := name + "-" + r + ".sql";
    var k := |f| - 4;
    assert f[k..] == ".sql";
    forall i: nat | i < k
      ensures !OccursAt(f, ".sql", i)
    {
      if i < |name| {
        assert f[i] == name[i] && name[i] in name;
      } else if i == |name| {
        assert f[i] == '-';
      } else {
        var j := i - |name| - 1;
        if j + 1 < |r| {
          assert f[i + 1] == r[j + 1];
          assert r[j + 1] in r;
        } else {
          assert f[i + 1] == '.';
        }
        assert f[i..i + 4][1] == f[i + 1];
      }
    }
  }

  /** The archive name is the dump name with only its final ".sql" turned into
      ".zip": the server name has no '.', and the timestamp has no 's', so ".sql"
      occurs nowhere earlier (the ".000Z" fraction never matches). */
  lemma ZipNameReplacesExtension(name: SourceId, u: UtcTime)
    ensures var f := DumpFileName(name, IsoTimestamp(u));
      && |f| > 4
      && ZipFileName(f) == f[..|f| - 4] + ".zip"
  {
    var iso := IsoTimestamp(u);
    ReplacedTimestamp(iso);
    ZipOfParts(name, ReplaceEvery(iso, ':', '-'));
  }

  lemma ZipOfParts(name: SourceId, r: string)
    requires 's' !in r
    ensures var f := name + "-" + r + ".sql";
      ReplaceFirst(f, ".sql", ".zip") == f[..|f| - 4] + ".zip"
  {
    OnlyFinalSql(name, r);
    var f := name + "-" + r + ".sql";
    ReplaceFirstLeftmost(f, ".sql", ".zip", |f| - 4);
    assert f[|f| - 4 + 4..] == [];
  }

  /** Everything one backup run names, derived from the server name and the clock. */
  datatype BackupPaths = BackupPaths(
    folder: Path, fileName: string, sqlFile: Path, zipName: string, zipFile: Path)

  /** `./backups/<name>`, the root the retention sweep lists. */
  function BackupRoot(name: SourceId): Path
  {
    Child(["backups"], name)
  }

  function PathsFor(name: SourceId, clock: Clock): BackupPaths
  {
    var folder := Child(BackupRoot(name), DateSegment(clock.local));
    var fileName := DumpFileName(name, IsoTimestamp(clock.utc));
    var zipName := ZipFileName(fileName);
    BackupPaths(folder, fileName, Child(folder, fileName), zipName, Child(folder, zipName))
  }

  /** The dump and the archive sit side by side in the dated folder under the
      server's backup root, differ only in their extension, and are distinct files. */
  lemma PathsForLayout(name: SourceId, clock: Clock)
    ensures var p := PathsFor(name, clock);
      && |p.fileName| > 4
      && p.folder == BackupRoot(name) + [DateSegment(clock.local)]
      && p.sqlFile == p.folder + [p.fileName]
      && p.zipFile == p.folder + [p.zipName]
      && p.zipName == p.fileName[..|p.fileName| - 4] + ".zip"
      && p.sqlFile != p.zipFile
      && '/' !in p.zipName
  {
    var p := PathsFor(name, clock);
    DumpFileNameShape(name, clock.utc);
    ZipNameReplacesExtension(name, clock.utc);
    SwapExtension(p.fileName);
    assert p.sqlFile[|p.sqlFile| - 1] == p.fileName;
    assert p.zipFile[|p.zipFile| - 1] == p.zipName;
  }

  lemma SwapExtension(f: string)
    requires |f| > 4 && f[|f| - 4..] == ".sql" && '/' !in f
    ensures var z := f[..|f| - 4] + ".zip"; z != f && '/' !in z
  {
    var z := f[..|f| - 4] + ".zip";
    assert z[|z| - 1] != f[|f| - 1];
    assert forall c :: c in z ==> c in f[..|f| - 4] || c in ".zip";
  }

  /** The log file: `./logs/<name>_backup.log`. */
  function LogFile(name: SourceId): Path
  {
    ["logs", name + "_backup.log"]
  }

  /** Different servers never share a log file, nor a backup root. Two non-empty
      names give roots neither of which lies inside the other; an empty name makes
      `path.join` drop its segment, so its root is `./backups` itself, which holds
      every other server's root. */
  lemma SourcesAreSeparated(a: SourceId, b: SourceId)
    requires a != b
    ensures LogFile(a) != LogFile(b)
    ensures BackupRoot(a) != BackupRoot(b)
    ensures a != "" && b != "" ==> !(BackupRoot(a) <= BackupRoot(b)) && !(BackupRoot(b) <= BackupRoot(a))
    ensures a == "" ==> BackupRoot(a) <= BackupRoot(b)
  {
    if a == "" || b == "" {
      assert |BackupRoot(a)| != |BackupRoot(b)|;
    } else {
      assert BackupRoot(a)[1] == a && BackupRoot(b)[1] == b;
    }
    var x, y := a + "_backup.log", b + "_backup.log";
    if |a| == |b| {
      assert x[..|a|] == a && y[..|b|] == b;
    } else {
      assert |x| != |y|;
    }
  }
}

=== FILE: pipeline.dfy ===
/** One backup run, `executeBackup` (index.js:79-160): check the configuration,
    make the dated folder, dump the database to a `.sql` file, compress it into a
    `.zip` beside it, check the archive is not empty, remove the `.sql`, and return
    `{ zipDir, date }` or `false`. The dump, the compression, the archive's size and
    each removal are outcomes the caller supplies. */
module Pipeline {
  import opened Options
  import opened Sanitizer
  import opened Paths
  import opened Config
  import opened Effects

  /** What the external steps of one run do: `mkdirSync` (index.js:96), `mysqldump`
      (100-108), `archive.finalize()` (127), the size `statSync` reports (134; None
      when it throws), and the two `fsp.rm` calls (138, 147). `mkdirOk` matters
      only when the folder does not exist yet. */
  datatype Outcomes = Outcomes(
    mkdirOk: bool,
    dumpOk: bool,
    finalizeOk: bool,
    zipSize: Option<nat>,
    rmZipOk: bool,
    rmSqlOk: bool)

  /** `false`, or `{ zipDir, date }`. */
  datatype BackupResult = NoBackup | Backup(zipDir: string, date: Clock)

  /** The folders `mkdirSync(folder, { recursive: true })` may create: the folder
      and every folder above it. */
  function Ancestry(folder: Path): set<Path>
  {
    set i | 1 <= i <= |folder| :: folder[..i]
  }

  /** The dump and the archive are two different files directly inside the folder. */
  predicate SideBySide(p: BackupPaths)
  {
    && p.sqlFile == p.folder + [p.fileName]
    && p.zipFile == p.folder + [p.zipName]
    && p.sqlFile != p.zipFile
  }

  lemma NotAnAncestor(folder: Path, f: Path)
    ensures |f| > |folder| ==> f !in Ancestry(folder)
  {
  }

  lemma PathsForSideBySide(name: SourceId, clock: Clock)
    ensures SideBySide(PathsFor(name, clock))
  {
    PathsForLayout(name, clock);
  }

  /** index.js:95-97: the folder is made, with its parents, unless it exists. */
  function MakeFolder(w: World, folder: Path, mkdirOk: bool): (r: Option<World>)
    ensures folder in w.fs ==> r == Some(w)
    ensures r.None? <==> folder !in w.fs && !mkdirOk
    ensures r.Some? ==> r.value == w.(fs := r.value.fs)
    ensures r.Some? ==> w.fs <= r.value.fs && r.value.fs - w.fs <= Ancestry(folder)
  {
    if folder in w.fs then Some(w)
    else if !mkdirOk then None
    else Some(w.(fs := w.fs + Ancestry(folder)))
  }

  /** index.js:133-155, once the archive is finalized and its size is known: an
      empty archive is reported and removed and the run returns `false`; otherwise
      the `.sql` is removed (a failure is only a warning) and the run returns the
      archive's path. */
  function Conclude(w: World, failing: set<nat>, p: BackupPaths, clock: Clock, size: nat, o: Outcomes)
    : (s: Step<BackupResult>)
    ensures s.world.outbox == w.outbox && s.world.appends >= w.appends
    ensures s.world.fs <= w.fs && w.fs - s.world.fs <= {p.sqlFile, p.zipFile}
    ensures s.Normal? ==> (s.value.Backup? <==> size > 0)
    ensures s.Normal? && s.value.Backup? ==> s.value == Backup(Render(p.zipFile), clock)
    ensures size > 0 && SideBySide(p) ==>
      && (p.zipFile in s.world.fs <==> p.zipFile in w.fs)
      && (p.sqlFile in s.world.fs <==> p.sqlFile in w.fs && !o.rmSqlOk)
    ensures size == 0 ==> !(s.Normal? && s.value.Backup?)
    ensures size == 0 && SideBySide(p) ==> (p.sqlFile in s.world.fs <==> p.sqlFile in w.fs)
    ensures NoFailureFrom(failing, w.appends) ==> s.Normal?
    ensures size == 0 && NoFailureFrom(failing, w.appends) ==>
      && s.world.log == w.log + [ArchiveEmpty]
      && (p.zipFile in s.world.fs <==> p.zipFile in w.fs && !o.rmZipOk)
    ensures size > 0 && NoFailureFrom(failing, w.appends) ==>
      s.world.log == w.log + (if o.rmSqlOk then [] else [SqlNotRemoved]) + [BackupCreated(Render(p.zipFile))]
  {
    if size == 0 then
      match Append(w, failing, ArchiveEmpty)
      case Thrown(w1) => Thrown(w1)
      case Normal(w1, _) =>
        Normal(if o.rmZipOk then w1.(fs := w1.fs - {p.zipFile}) else w1, NoBackup)
    else
      var w1 := if o.rmSqlOk then w.(fs := w.fs - {p.sqlFile}) else w;
      var warned := if o.rmSqlOk then Normal(w1, ()) else Append(w1, failing, SqlNotRemoved);
      match warned
      case Thrown(w2) => Thrown(w2)
      case Normal(w2, _) =>
        Returning(Append(w2, failing, BackupCreated(Render(p.zipFile))), Backup(Render(p.zipFile), clock))
  }

  /** The body of the `try` at index.js:86-155, once the configuration passed: a
      failed dump or compression is logged and returns `false`; a failed `mkdir`
      or `stat` throws. */
  function Attempt(w: World, failing: set<nat>, p: BackupPaths, clock: Clock, o: Outcomes)
    : (s: Step<BackupResult>)
    ensures s.world.outbox == w.outbox && s.world.appends >= w.appends
    ensures s.world.fs - w.fs <= Ancestry(p.folder) + {p.sqlFile, p.zipFile}
    ensures w.fs - s.world.fs <= {p.sqlFile, p.zipFile}
    ensures s.Normal? && s.value.Backup? ==>
      && o.dumpOk && o.finalizeOk && o.zipSize.Some? && o.zipSize.value > 0
      && s.value == Backup(Render(p.zipFile), clock)
    ensures p.folder !in w.fs && !o.mkdirOk ==> s == Thrown(w)
    ensures SideBySide(p) && (p.folder in w.fs || o.mkdirOk) ==>
      && (!o.dumpOk ==> (p.sqlFile in s.world.fs <==> p.sqlFile in w.fs) && (p.zipFile in s.world.fs <==> p.zipFile in w.fs))
      && (o.dumpOk ==> (p.sqlFile !in s.world.fs <==> o.finalizeOk && o.zipSize.Some? && o.zipSize.value > 0 && o.rmSqlOk))
      && (o.dumpOk && o.finalizeOk && o.zipSize.Some? && o.zipSize.value > 0 ==> p.zipFile in s.world.fs)
    ensures (p.folder in w.fs || o.mkdirOk) && NoFailureFrom(failing, w.appends) ==>
      && (s.Normal? <==> !(o.dumpOk && o.finalizeOk && o.zipSize.None?))
      && (!o.dumpOk ==> s.world.log == w.log + [DumpFailed])
      && (o.dumpOk && !o.finalizeOk ==> s.world.log == w.log + [ArchiveFailed])
      && (o.dumpOk && o.finalizeOk && o.zipSize == Some(0) ==> s.world.log == w.log + [ArchiveEmpty])
      && (o.dumpOk && o.finalizeOk && o.zipSize.Some? && o.zipSize.value > 0 ==>
            && s.value == Backup(Render(p.zipFile), clock)
            && s.world.log == w.log + (if o.rmSqlOk then [] else [SqlNotRemoved]) + [BackupCreated(Render(p.zipFile))])
  {
    match MakeFolder(w, p.folder, o.mkdirOk)
    case None => Thrown(w)
    case Some(w1) =>
      NotAnAncestor(p.folder, p.sqlFile);
      NotAnAncestor(p.folder, p.zipFile);
      if !o.dumpOk then Returning(Append(w1, failing, DumpFailed), NoBackup)
      else
        // the dump file, then the archive `createWriteStream` opens beside it
        var w2 := w1.(fs := w1.fs + {p.sqlFile, p.zipFile});
        if !o.finalizeOk then Returning(Append(w2, failing, ArchiveFailed), NoBackup)
        else
          match o.zipSize
          case None => Thrown(w2)
          case Some(size) => Conclude(w2, failing, p, clock, size, o)
  }

  /** `executeBackup()`: a configuration without host, database or user is refused
      before anything touches the disk; an exception inside the run is logged and
      turns into `false`, unless that log append fails too and the exception escapes. */
  function ExecuteBackup(w: World, failing: set<nat>, name: SourceId, v: ConfigValue, clock: Clock, o: Outcomes)
    : (s: Step<BackupResult>)
    ensures s.world.outbox == w.outbox && s.world.appends >= w.appends
    ensures !ValidForBackup(v) ==> s.world.fs == w.fs
    ensures !ValidForBackup(v) && s.Normal? ==> s.value == NoBackup && s.world.log == w.log + [ConfigInvalid]
    ensures s.Normal? && s.value.Backup? ==>
      && ValidForBackup(v)
      && o.dumpOk && o.finalizeOk && o.zipSize.Some? && o.zipSize.value > 0
      && s.value == Backup(Render(PathsFor(name, clock).zipFile), clock)
    ensures NoFailureFrom(failing, w.appends) ==> s.Normal?
  {
    if !ValidForBackup(v) then Returning(Append(w, failing, ConfigInvalid), NoBackup)
    else
      match Attempt(w, failing, PathsFor(name, clock), clock, o)
      case Normal(w1, r) => Normal(w1, r)
      case Thrown(w1) => Returning(Append(w1, failing, BackupUnexpected), NoBackup)
  }

  /** With a valid configuration, the run is the attempt, with an escaping
      exception logged and turned into `false`. */
  lemma ValidRun(w: World, failing: set<nat>, name: SourceId, v: ConfigValue, clock: Clock, o: Outcomes)
    requires ValidForBackup(v)
    ensures var a := Attempt(w, failing, PathsFor(name, clock), clock, o);
      ExecuteBackup(w, failing, name, v, clock, o)
        == if a.Normal? then a else Returning(Append(a.world, failing, BackupUnexpected), NoBackup)
  {
  }

  /** Whatever happens, a run only ever adds the dated folder (with the folders
      above it), the `.sql` and the `.zip`, and only ever removes those two files. */
  lemma ExecuteBackupFrame(w: World, failing: set<nat>, name: SourceId, v: ConfigValue, clock: Clock, o: Outcomes)
    ensures var s := ExecuteBackup(w, failing, name, v, clock, o);
      var p := PathsFor(name, clock);
      && s.world.fs - w.fs <= Ancestry(p.folder) + {p.sqlFile, p.zipFile}
      && w.fs - s.world.fs <= {p.sqlFile, p.zipFile}
  {
    if ValidForBackup(v) {
      ValidRun(w, failing, name, v, clock, o);
    }
  }

  /** A run that returns `{ zipDir, date }` leaves the archive on disk, and leaves
      the dump only when its removal failed. */
  lemma BackupLeavesArchive(w: World, failing: set<nat>, name: SourceId, v: ConfigValue, clock: Clock, o: Outcomes)
    ensures var s := ExecuteBackup(w, failing, name, v, clock, o);
      var p := PathsFor(name, clock);
      s.Normal? && s.value.Backup? ==>
        && p.zipFile in s.world.fs
        && (p.sqlFile in s.world.fs <==> !o.rmSqlOk)
  {
    PathsForSideBySide(name, clock);
    if ValidForBackup(v) {
      ValidRun(w, failing, name, v, clock, o);
    }
  }

  /** A failed dump returns `false` (logging why) and creates neither the `.sql`
      nor the `.zip`. */
  lemma DumpFailureLeavesNoFiles(w: World, failing: set<nat>, name: SourceId, v: ConfigValue, clock: Clock, o: Outcomes)
    requires ValidForBackup(v) && !o.dumpOk
    requires o.mkdirOk
    ensures var s := ExecuteBackup(w, failing, name, v, clock, o);
      var p := PathsFor(name, clock);
      && (s.Normal? ==> s.value == NoBackup)
      && (p.sqlFile in s.world.fs <==> p.sqlFile in w.fs)
      && (p.zipFile in s.world.fs <==> p.zipFile in w.fs)
      && (NoFailureFrom(failing, w.appends) ==> s.Normal? && s.world.log == w.log + [DumpFailed])
  {
    PathsForSideBySide(name, clock);
    ValidRun(w, failing, name, v, clock, o);
  }

  /** An empty archive returns `false`; the `.sql` stays, and the `.zip` is removed
      when its removal succeeds. */
  lemma EmptyArchiveKeepsDump(w: World, failing: set<nat>, name: SourceId, v: ConfigValue, clock: Clock, o: Outcomes)
    requires ValidForBackup(v) && o.dumpOk && o.finalizeOk && o.zipSize == Some(0)
    requires o.mkdirOk
    requires NoFailureFrom(failing, w.appends)
    ensures var s := ExecuteBackup(w, failing, name, v, clock, o);
      var p := PathsFor(name, clock);
      && s.Normal? && s.value == NoBackup
      && s.world.log == w.log + [ArchiveEmpty]
      && p.sqlFile in s.world.fs
      && (p.zipFile in s.world.fs <==> !o.rmZipOk)
  {
    PathsForSideBySide(name, clock);
    ValidRun(w, failing, name, v, clock, o);
  }

  /** A non-empty archive, with every log line written, returns `{ zipDir, date }`
      whether or not the `.sql` could be removed: that failure is only a warning. */
  lemma NonEmptyArchiveSucceeds(w: World, failing: set<nat>, name: SourceId, v: ConfigValue, clock: Clock, o: Outcomes)
    requires ValidForBackup(v) && o.dumpOk && o.finalizeOk && o.zipSize.Some? && o.zipSize.value > 0
    requires o.mkdirOk
    requires NoFailureFrom(failing, w.appends)
    ensures var s := ExecuteBackup(w, failing, name, v, clock, o);
      var p := PathsFor(name, clock);
      && s == Normal(s.world, Backup(Render(p.zipFile), clock))
      && s.world.log == w.log + (if o.rmSqlOk then [] else [SqlNotRemoved]) + [BackupCreated(Render(p.zipFile))]
  {
    ValidRun(w, failing, name, v, clock, o);
  }

  /** A `stat` of the archive that throws is caught: the run logs the unexpected
      error and returns `false`. */
  lemma ExceptionBecomesFalse(w: World, failing: set<nat>, name: SourceId, v: ConfigValue, clock: Clock, o: Outcomes)
    requires ValidForBackup(v)
    requires o.mkdirOk && o.dumpOk && o.finalizeOk && o.zipSize.None?
    requires NoFailureFrom(failing, w.appends)
    ensures var s := ExecuteBackup(w, failing, name, v, clock, o);
      && s.Normal? && s.value == NoBackup
      && s.world.log == w.log + [BackupUnexpected]
  {
    ValidRun(w, failing, name, v, clock, o);
  }

  /** A `mkdir` that throws is caught the same way, and nothing is created. */
  lemma MkdirFailureBecomesFalse(w: World, failing: set<nat>, name: SourceId, v: ConfigValue, clock: Clock, o: Outcomes)
    requires ValidForBackup(v) && !o.mkdirOk
    requires NoFailureFrom(failing, w.appends)
    ensures var s := ExecuteBackup(w, failing, name, v, clock, o);
      PathsFor(name, clock).folder !in w.fs ==>
        && s.Normal? && s.value == NoBackup
        && s.world.log == w.log + [BackupUnexpected]
        && s.world.fs == w.fs
  {
    ValidRun(w, failing, name, v, clock, o);
  }
}

=== FILE: retention.dfy ===
/** The retention sweep, `cleanOldBackups` (index.js:169-190): every entry directly
    under `./backups/<name>` whose age exceeds the retention period is removed
    recursively. The listing, each entry's `stat` and each removal are outcomes the
    caller supplies; ages are compared in whole milliseconds. */
module Retention {
  import opened Options
  import opened Sanitizer
  import opened Paths
  import opened Config
  import opened Effects

  /** One entry `readdir` returned, with what happens to it: `mtimeMs` is None when
      `stat` throws, `removable` is false when `rm` throws. */
  datatype Entry = Entry(name: string, mtimeMs: Option<int>, removable: bool)

  /** The outcome of `readdir` on the backup root. */
  datatype Listing = ListingFails | Listed(entries: seq<Entry>)

  /** `(now - mtimeMs) / (1000 * 60 * 60 * 24) > retentionDays`, in milliseconds. */
  predicate Expired(nowMs: int, mtimeMs: int, days: int)
  {
    nowMs - mtimeMs > days * DayMs
  }

  /** The integer comparison is the source's division by the length of a day,
      taken over exact reals. */
  lemma ExpiredIsAgeInDays(nowMs: int, mtimeMs: int, days: int)
    ensures Expired(nowMs, mtimeMs, days) <==> (nowMs - mtimeMs) as real / DayMs as real > days as real
  {
    var age, day := (nowMs - mtimeMs) as real, DayMs as real;
    assert age / day * day == age;
    assert (days * DayMs) as real == days as real * day;
    if age / day > days as real {
      assert age / day * day > days as real * day;
    } else {
      assert age / day * day <= days as real * day;
    }
  }

  predicate Overdue(e: Entry, nowMs: int, days: int)
  {
    e.mtimeMs.Some? && Expired(nowMs, e.mtimeMs.value, days)
  }

  /** The entries a complete sweep removes: the overdue ones whose removal succeeds,
      in listing order. */
  function Removed(es: seq<Entry>, nowMs: int, days: int): seq<Entry>
  {
    if es == [] then []
    else if Overdue(es[0], nowMs, days) && es[0].removable then [es[0]] + Removed(es[1..], nowMs, days)
    else Removed(es[1..], nowMs, days)
  }

  /** The entries a complete sweep leaves behind. */
  function Survivors(es: seq<Entry>, nowMs: int, days: int): seq<Entry>
  {
    if es == [] then []
    else if Overdue(es[0], nowMs, days) && es[0].removable then Survivors(es[1..], nowMs, days)
    else [es[0]] + Survivors(es[1..], nowMs, days)
  }

  function EntryPath(root: Path, e: Entry): Path
  {
    root + [e.name]
  }

  /** The log lines a complete sweep appends when no append fails: one per overdue
      entry, in listing order. */
  function SweepEvents(root: Path, es: seq<Entry>, nowMs: int, days: int): seq<Event>
  {
    if es == [] then []
    else if !Overdue(es[0], nowMs, days) then SweepEvents(root, es[1..], nowMs, days)
    else if es[0].removable then [OldBackupRemoved(Render(EntryPath(root, es[0])))] + SweepEvents(root, es[1..], nowMs, days)
    else [OldBackupRemoveFailed] + SweepEvents(root, es[1..], nowMs, days)
  }

  /** `fs.rm(p, { recursive: true, force: true })`: `p` and everything below it go. */
  function Without(fs: set<Path>, p: Path): set<Path>
  {
    set q | q in fs && !(p <= q)
  }

  function WithoutAll(fs: set<Path>, root: Path, rs: seq<Entry>): set<Path>
  {
    if rs == [] then fs else WithoutAll(Without(fs, EntryPath(root, rs[0])), root, rs[1..])
  }

  /** A path lies below (or is) one of the removed entries. */
  predicate Below(p: Path, root: Path, rs: seq<Entry>)
  {
    exists i :: 0 <= i < |rs| && EntryPath(root, rs[i]) <= p
  }

  predicate AllStatted(es: seq<Entry>)
  {
    forall i :: 0 <= i < |es| ==> es[i].mtimeMs.Some?
  }

  /** A line the sweep may write: a removal or a failed removal. */
  predicate SweepLine(e: Event)
  {
    e.OldBackupRemoved? || e == OldBackupRemoveFailed
  }

  /** The line announcing a removal (index.js:183), inside the `try` whose `catch`
      (index.js:184-186) logs a failed removal instead when that append throws. */
  function AnnounceRemoval(w: World, failing: set<nat>, line: Event): (s: Step<()>)
    ensures s.world.fs == w.fs && s.world.outbox == w.outbox && s.world.appends > w.appends
    ensures s.Normal? <==> w.appends !in failing || w.appends + 1 !in failing
    ensures s.Normal? ==> s.world.log == w.log + [line] || s.world.log == w.log + [OldBackupRemoveFailed]
    ensures s.Thrown? ==> s.world.log == w.log
    ensures w.appends !in failing ==> s == Normal(w.(log := w.log + [line], appends := w.appends + 1), ())
    ensures w.appends in failing && w.appends + 1 !in failing ==>
      s == Normal(w.(log := w.log + [OldBackupRemoveFailed], appends := w.appends + 2), ())
  {
    match Append(w, failing, line)
    case Normal(w1, _) => Normal(w1, ())
    case Thrown(w1) => Append(w1, failing, OldBackupRemoveFailed)
  }

  /** The `for` loop of index.js:176-188 from the current entry on. A `stat` that
      throws ends the sweep by throwing. The `try` covers the `rm` and the line
      announcing it: when either throws, the failure is logged and the loop goes on;
      only a failing append of that failure line ends the sweep. */
  function SweepEntries(w: World, failing: set<nat>, root: Path, es: seq<Entry>, nowMs: int, days: int)
    : (s: Step<seq<Entry>>)
    ensures s.world.outbox == w.outbox && s.world.appends >= w.appends
    ensures s.world.fs <= w.fs
    ensures s.Normal? ==> s.value == Removed(es, nowMs, days)
    ensures s.Normal? ==> s.world.fs == WithoutAll(w.fs, root, s.value)
    ensures AllStatted(es) && NoFailureFrom(failing, w.appends) ==> s.Normal?
    decreases |es|
  {
    if es == [] then Normal(w, [])
    else
      var e := es[0];
      assert AllStatted(es) ==> AllStatted(es[1..]);
      match e.mtimeMs
      case None => Thrown(w)
      case Some(mtime) =>
        if !Expired(nowMs, mtime, days) then SweepEntries(w, failing, root, es[1..], nowMs, days)
        else if e.removable then
          var w1 := w.(fs := Without(w.fs, EntryPath(root, e)));
          match AnnounceRemoval(w1, failing, OldBackupRemoved(Render(EntryPath(root, e))))
          case Thrown(w2) => Thrown(w2)
          case Normal(w2, _) =>
            match SweepEntries(w2, failing, root, es[1..], nowMs, days)
            case Thrown(w3) => Thrown(w3)
            case Normal(w3, rs) =>
              assert ([e] + rs)[0] == e && ([e] + rs)[1..] == rs;
              Normal(w3, [e] + rs)
        else
          match Append(w, failing, OldBackupRemoveFailed)
          case Thrown(w2) => Thrown(w2)
          case Normal(w2, _) =>
            SweepEntries(w2, failing, root, es[1..], nowMs, days)
  }

  /** Whatever fails, the sweep only appends to the log, at most one line per
      entry, and only removal lines. */
  lemma {:induction false} SweepLogsOnlyRemovals(w: World, failing: set<nat>, root: Path, es: seq<Entry>, nowMs: int, days: int)
    ensures var s := SweepEntries(w, failing, root, es, nowMs, days);
      && w.log <= s.world.log && |s.world.log| <= |w.log| + |es|
      && forall i :: |w.log| <= i < |s.world.log| ==> SweepLine(s.world.log[i])
    decreases |es|
  {
    if es != [] && es[0].mtimeMs.Some? {
      var e := es[0];
      var w1 := if !Expired(nowMs, e.mtimeMs.value, days) then w
        else if e.removable then AnnounceRemoval(w.(fs := Without(w.fs, EntryPath(root, e))), failing, OldBackupRemoved(Render(EntryPath(root, e)))).world
        else Append(w, failing, OldBackupRemoveFailed).world;
      assert w.log <= w1.log && |w1.log| <= |w.log| + 1;
      assert forall i :: |w.log| <= i < |w1.log| ==> SweepLine(w1.log[i]);
      SweepLogsOnlyRemovals(w1, failing, root, es[1..], nowMs, days);
    }
  }

  /** When no append fails, a completed sweep logs one line per overdue entry, in
      listing order: the removal, or the failure to remove. */
  lemma {:induction false} SweepLogsEvents(w: World, failing: set<nat>, root: Path, es: seq<Entry>, nowMs: int, days: int)
    requires NoFailureFrom(failing, w.appends)
    ensures var s := SweepEntries(w, failing, root, es, nowMs, days);
      s.Normal? ==> s.world.log == w.log + SweepEvents(root, es, nowMs, days)
    decreases |es|
  {
    if es != [] && es[0].mtimeMs.Some? {
      var e := es[0];
      if !Expired(nowMs, e.mtimeMs.value, days) {
        SweepLogsEvents(w, failing, root, es[1..], nowMs, days);
      } else {
        var line := if e.removable then OldBackupRemoved(Render(EntryPath(root, e))) else OldBackupRemoveFailed;
        var w1 := World(if e.removable then Without(w.fs, EntryPath(root, e)) else w.fs, w.log + [line], w.appends + 1, w.outbox);
        var s, t := SweepEntries(w, failing, root, es, nowMs, days), SweepEntries(w1, failing, root, es[1..], nowMs, days);
        assert s.Normal? == t.Normal? && s.world == t.world;
        assert SweepEvents(root, es, nowMs, days) == [line] + SweepEvents(root, es[1..], nowMs, days);
        SweepLogsEvents(w1, failing, root, es[1..], nowMs, days);
      }
    }
  }

  /** A sweep completes only when every listed entry could be `stat`ed: the first
      `stat` that throws, wherever it is in the listing, ends the sweep by
      throwing, after the entries before it have been handled. */
  lemma {:induction false} CompletedSweepStattedAll(w: World, failing: set<nat>, root: Path, es: seq<Entry>, nowMs: int, days: int)
    ensures SweepEntries(w, failing, root, es, nowMs, days).Normal? ==> AllStatted(es)
    decreases |es|
  {
    if es != [] && es[0].mtimeMs.Some? {
      var e := es[0];
      var step :=
        if !Expired(nowMs, e.mtimeMs.value, days) then Normal(w, ())
        else if e.removable then AnnounceRemoval(w.(fs := Without(w.fs, EntryPath(root, e))), failing, OldBackupRemoved(Render(EntryPath(root, e))))
        else Append(w, failing, OldBackupRemoveFailed);
      if step.Normal? {
        CompletedSweepStattedAll(step.world, failing, root, es[1..], nowMs, days);
        assert SweepEntries(w, failing, root, es, nowMs, days).Normal? ==>
          SweepEntries(step.world, failing, root, es[1..], nowMs, days).Normal?;
      }
      assert forall i :: 1 <= i < |es| ==> es[i] == es[1..][i - 1];
    }
  }

  /** No two consecutive appends from `from` on both fail. */
  predicate IsolatedFailures(failing: set<nat>, from: nat)
  {
    forall k :: k in failing && k >= from ==> k + 1 !in failing
  }

  /** When every entry can be `stat`ed and removed, the sweep completes unless
      two consecutive appends fail: a failing announcement is caught and logged. */
  lemma {:induction false} SweepSurvivesIsolatedFailures(w: World, failing: set<nat>, root: Path, es: seq<Entry>, nowMs: int, days: int)
    requires AllStatted(es) && IsolatedFailures(failing, w.appends)
    requires forall i :: 0 <= i < |es| ==> es[i].removable
    ensures SweepEntries(w, failing, root, es, nowMs, days).Normal?
    decreases |es|
  {
    if es != [] {
      var e := es[0];
      assert AllStatted(es[1..]) && forall i :: 0 <= i < |es[1..]| ==> es[1..][i].removable by {
        forall i | 0 <= i < |es[1..]| ensures es[1..][i].mtimeMs.Some? && es[1..][i].removable {
          assert es[1..][i] == es[i + 1];
        }
      }
      assert e.mtimeMs.Some? && e.removable by { assert es[0] == e; }
      if Expired(nowMs, e.mtimeMs.value, days) {
        var a := AnnounceRemoval(w.(fs := Without(w.fs, EntryPath(root, e))), failing, OldBackupRemoved(Render(EntryPath(root, e))));
        assert a.Normal?;
        SweepSurvivesIsolatedFailures(a.world, failing, root, es[1..], nowMs, days);
      } else {
        SweepSurvivesIsolatedFailures(w, failing, root, es[1..], nowMs, days);
      }
    }
  }

  /** The entry is removed even when the line announcing it cannot be written: the
      failure is logged instead and the sweep completes. */
  lemma AnnouncementFailureIsCaught(w: World, root: Path, e: Entry, nowMs: int, days: int)
    requires e.mtimeMs.Some? && Expired(nowMs, e.mtimeMs.value, days) && e.removable
    ensures SweepEntries(w, {w.appends}, root, [e], nowMs, days)
      == Normal(World(Without(w.fs, EntryPath(root, e)), w.log + [OldBackupRemoveFailed], w.appends + 2, w.outbox), [e])
  {
    var w1 := w.(fs := Without(w.fs, EntryPath(root, e)));
    var w2 := World(w1.fs, w.log + [OldBackupRemoveFailed], w.appends + 2, w.outbox);
    assert Append(w1, {w.appends}, OldBackupRemoved(Render(EntryPath(root, e)))) == Thrown(w1.(appends := w.appends + 1));
    assert AnnounceRemoval(w1, {w.appends}, OldBackupRemoved(Render(EntryPath(root, e)))) == Normal(w2, ());
    assert [e][1..] == [] && [e] + [] == [e];
    assert SweepEntries(w2, {w.appends}, root, [], nowMs, days) == Normal(w2, []);
  }

  /** `cleanOldBackups()`: nothing happens without a backup root; a `readdir` that
      throws ends the sweep by throwing. */
  function Sweep(w: World, failing: set<nat>, listing: Listing, nowMs: int, name: SourceId, c: BackupConfig)
    : (s: Step<seq<Entry>>)
    ensures BackupRoot(name) !in w.fs ==> s == Normal(w, [])
    ensures BackupRoot(name) in w.fs && listing.ListingFails? ==> s == Thrown(w)
    ensures BackupRoot(name) in w.fs && listing.Listed? ==>
      s == SweepEntries(w, failing, BackupRoot(name), listing.entries, nowMs, RetentionDays(c))
  {
    var root := BackupRoot(name);
    if root !in w.fs then Normal(w, [])
    else
      match listing
      case ListingFails => Thrown(w)
      case Listed(es) => SweepEntries(w, failing, root, es, nowMs, RetentionDays(c))
  }

  /** After removing the entries `rs`, a path remains exactly when it existed and
      lies below none of them. */
  lemma {:induction false} WithoutAllKeeps(fs: set<Path>, root: Path, rs: seq<Entry>, p: Path)
    ensures p in WithoutAll(fs, root, rs) <==> p in fs && !Below(p, root, rs)
    decreases |rs|
  {
    if rs != [] {
      WithoutAllKeeps(Without(fs, EntryPath(root, rs[0])), root, rs[1..], p);
      if Below(p, root, rs) && !(EntryPath(root, rs[0]) <= p) {
        var i :| 0 <= i < |rs| && EntryPath(root, rs[i]) <= p;
        assert rs[1..][i - 1] == rs[i];
      }
      if Below(p, root, rs[1..]) {
        var i :| 0 <= i < |rs[1..]| && EntryPath(root, rs[1..][i]) <= p;
        assert rs[i + 1] == rs[1..][i];
      }
    }
  }

  /** An entry is removed exactly when it is overdue and its removal succeeds. */
  lemma {:induction false} RemovedExactly(es: seq<Entry>, nowMs: int, days: int, e: Entry)
    ensures e in Removed(es, nowMs, days) <==> e in es && Overdue(e, nowMs, days) && e.removable
    decreases |es|
  {
    if es != [] {
      RemovedExactly(es[1..], nowMs, days, e);
      assert es == [es[0]] + es[1..];
    }
  }

  /** The removed and the surviving entries together are the listing: nothing is
      lost and nothing is removed twice. */
  lemma {:induction false} RemovedAndSurvivorsPartition(es: seq<Entry>, nowMs: int, days: int)
    ensures multiset(Removed(es, nowMs, days)) + multiset(Survivors(es, nowMs, days)) == multiset(es)
    decreases |es|
  {
    if es != [] {
      RemovedAndSurvivorsPartition(es[1..], nowMs, days);
      assert es == [es[0]] + es[1..];
    }
  }

  /** A second sweep over what the first left behind, at the same instant and with
      the same outcomes, removes nothing; when no removal failed the first time it
      does not log anything either. */
  lemma {:induction false} SweepAgainRemovesNothing(root: Path, es: seq<Entry>, nowMs: int, days: int)
    ensures Removed(Survivors(es, nowMs, days), nowMs, days) == []
    ensures (forall i :: 0 <= i < |es| && Overdue(es[i], nowMs, days) ==> es[i].removable) ==>
      SweepEvents(root, Survivors(es, nowMs, days), nowMs, days) == []
    decreases |es|
  {
    if es != [] {
      SweepAgainRemovesNothing(root, es[1..], nowMs, days);
      if (forall i :: 0 <= i < |es| && Overdue(es[i], nowMs, days) ==> es[i].removable) {
        assert forall i :: 0 <= i < |es[1..]| && Overdue(es[1..][i], nowMs, days) ==> es[1..][i].removable by {
          forall i | 0 <= i < |es[1..]| && Overdue(es[1..][i], nowMs, days)
            ensures es[1..][i].removable
          {
            assert es[1..][i] == es[i + 1];
          }
        }
      }
    }
  }

  /** A complete sweep leaves every path that no removed entry covers, and removes
      every path below a removed entry. */
  lemma SweepFrame(w: World, failing: set<nat>, root: Path, es: seq<Entry>, nowMs: int, days: int, p: Path)
    requires SweepEntries(w, failing, root, es, nowMs, days).Normal?
    ensures var s := SweepEntries(w, failing, root, es, nowMs, days);
      p in s.world.fs <==> p in w.fs && !Below(p, root, Removed(es, nowMs, days))
  {
    var s := SweepEntries(w, failing, root, es, nowMs, days);
    WithoutAllKeeps(w.fs, root, s.value, p);
  }

  /** With a 30-day threshold, entries 10, 29, 30, 31 and 40 days old lose exactly
      the 31- and 40-day ones: an entry exactly 30 days old is kept. */
  lemma ThresholdExample(nowMs: int)
    ensures var es := [
        Entry("a", Some(nowMs - 10 * DayMs), true),
        Entry("b", Some(nowMs - 29 * DayMs), true),
        Entry("c", Some(nowMs - 30 * DayMs), true),
        Entry("d", Some(nowMs - 31 * DayMs), true),
        Entry("e", Some(nowMs - 40 * DayMs), true)];
      Removed(es, nowMs, 30) == [es[3], es[4]]
  {
    var es := [
        Entry("a", Some(nowMs - 10 * DayMs), true),
        Entry("b", Some(nowMs - 29 * DayMs), true),
        Entry("c", Some(nowMs - 30 * DayMs), true),
        Entry("d", Some(nowMs - 31 * DayMs), true),
        Entry("e", Some(nowMs - 40 * DayMs), true)];
    assert es[4..][1..] == [];
    assert Removed(es[4..], nowMs, 30) == [es[4]];
    assert es[3..][1..] == es[4..];
    assert Removed(es[3..], nowMs, 30) == [es[3], es[4]];
    assert es[2..][1..] == es[3..];
    assert !Overdue(es[2], nowMs, 30);
    assert Removed(es[2..], nowMs, 30) == [es[3], es[4]];
    assert es[1..][1..] == es[2..];
    assert Removed(es[1..], nowMs, 30) == [es[3], es[4]];
  }
}

=== FILE: sanitizer.dfy ===
/** The server-name sanitiser (index.js:39): `name.replace(/[^a-zA-Z0-9_-]/g, '_')`.
    The result is the source identifier that namespaces the backup folders and the
    log file. The regular expression has no `u` flag, so it works on UTF-16 code
    units: a character outside the Basic Multilingual Plane is two code units and
    becomes two underscores. */
module Sanitizer {

  predicate IsAllowed(c: char)
  {
    ('a' <= c <= 'z') || ('A' <= c <= 'Z') || ('0' <= c <= '9') || c == '_' || c == '-'
  }

  predicate AllAllowed(s: string) { forall i :: 0 <= i < |s| ==> IsAllowed(s[i]) }

  /** A character JavaScript stores as a surrogate pair. */
  predicate IsAstral(c: char) { c as int >= 0x1_0000 }

  /** The JavaScript `length` of a string: its number of UTF-16 code units. */
  function Utf16Length(s: string): nat
  {
    if s == [] then 0 else (if IsAstral(s[0]) then 2 else 1) + Utf16Length(s[1..])
  }

  /** A sanitised server name: only `[A-Za-z0-9_-]`. */
  type SourceId = s: string | AllAllowed(s)

  function SanitizeChar(c: char): string
  {
    if IsAllowed(c) then [c] else if IsAstral(c) then "__" else "_"
  }

  function Sanitize(s: string): (r: string)
    ensures AllAllowed(r)
    ensures |r| == Utf16Length(s)
    ensures AllAllowed(s) ==> r == s
  {
    if s == [] then []
    else
      var r := SanitizeChar(s[0]) + Sanitize(s[1..]);
      assert AllAllowed(s) ==> AllAllowed(s[1..]) && IsAllowed(s[0]);
      r
  }

  /** Sanitising a sanitised name changes nothing. */
  lemma SanitizeIdempotent(s: string)
    ensures Sanitize(Sanitize(s)) == Sanitize(s)
  {
    var r := Sanitize(s);
    assert AllAllowed(r);
  }

  /** For a name without astral characters the sanitiser works position by
      position: allowed characters stay, every other one becomes '_'. */
  lemma {:induction false} SanitizePointwise(s: string)
    requires forall i :: 0 <= i < |s| ==> !IsAstral(s[i])
    ensures |Sanitize(s)| == |s|
    ensures forall i :: 0 <= i < |s| ==> Sanitize(s)[i] == (if IsAllowed(s[i]) then s[i] else '_')
  {
    if s != [] {
      SanitizePointwise(s[1..]);
      var r := Sanitize(s);
      assert r == SanitizeChar(s[0]) + Sanitize(s[1..]);
      forall i | 0 <= i < |s|
        ensures r[i] == (if IsAllowed(s[i]) then s[i] else '_')
      {
        if i > 0 {
          assert r[i] == Sanitize(s[1..])[i - 1];
          assert s[i] == s[1..][i - 1];
        }
      }
    }
  }

  /** The sanitiser works piece by piece: sanitising a concatenation
      concatenates the sanitised pieces. */
  lemma {:induction false} SanitizeAppend(a: string, b: string)
    ensures Sanitize(a + b) == Sanitize(a) + Sanitize(b)
    decreases |a|
  {
    if a != [] {
      var c := SanitizeChar(a[0]);
      assert (a + b)[0] == a[0] && (a + b)[1..] == a[1..] + b;
      SanitizeAppend(a[1..], b);
      calc {
        Sanitize(a + b);
        c + Sanitize(a[1..] + b);
        c + (Sanitize(a[1..]) + Sanitize(b));
        (c + Sanitize(a[1..])) + Sanitize(b);
        Sanitize(a) + Sanitize(b);
      }
    } else {
      assert a + b == b;
    }
  }

  /** For a name without astral characters, a string is its sanitised form as
      soon as it agrees with the rule at every position. */
  lemma SanitizeMatches(s: string, t: string)
    requires forall i :: 0 <= i < |s| ==> !IsAstral(s[i])
    requires |t| == |s|
    requires forall i :: 0 <= i < |s| ==> t[i] == (if IsAllowed(s[i]) then s[i] else '_')
    ensures Sanitize(s) == t
  {
    SanitizePointwise(s);
  }

  /** The spaces and the '!' of "My Server! 2024" each become '_'. */
  lemma SanitizeExample(name: string)
    requires name == "My Server! 2024"
    ensures Sanitize(name) == "My_Server__2024"
  {
    var expected := "My_Server__2024";
    assert name[0] == 'M' && name[1] == 'y' && name[2] == ' ' && name[3] == 'S' && name[4] == 'e';
    assert name[5] == 'r' && name[6] == 'v' && name[7] == 'e' && name[8] == 'r' && name[9] == '!';
    assert name[10] == ' ' && name[11] == '2' && name[12] == '0' && name[13] == '2' && name[14] == '4';
    forall i | 0 <= i < |name|
      ensures !IsAstral(name[i]) && expected[i] == (if IsAllowed(name[i]) then name[i] else '_')
    {
    }
    SanitizeMatches(name, expected);
  }

  /** A source identifier never contains a path separator, a dot or a colon, so it
      is a single path segment and cannot be mistaken for part of an extension. */
  lemma SourceIdHasNoSeparators(name: SourceId)
    ensures '/' !in name && '.' !in name && ':' !in name
  {
  }
}

=== FILE: text.dfy ===
/** String and number helpers with the meaning of the JavaScript built-ins the
    backup agent relies on: integer `toString`, `padStart`, a global replace of
    one character, and `replace` with a string pattern (first occurrence only). */
module Text {

  predicate IsDigit(c: char) { '0' <= c <= '9' }

  predicate AllDigits(s: string) { forall i :: 0 <= i < |s| ==> IsDigit(s[i]) }

  function DigitValue(c: char): (d: nat)
    requires IsDigit(c)
    ensures d < 10
  {
    c as int - '0' as int
  }

  function DigitChar(d: nat): (c: char)
    requires d < 10
    ensures IsDigit(c) && DigitValue(c) == d
  {
    (d + '0' as int) as char
  }

  function Pow10(k: nat): (p: nat)
    ensures p >= 1
  {
    if k == 0 then 1 else 10 * Pow10(k - 1)
  }

  /** The number a string of decimal digits denotes; leading zeros are allowed. */
  function DecValue(s: string): nat
    requires AllDigits(s)
  {
    if s == [] then 0 else 10 * DecValue(s[..|s| - 1]) + DigitValue(s[|s| - 1])
  }

  /** `n.toString()` for a non-negative integer: the shortest decimal numeral of `n`. */
  function NatToDec(n: nat): (s: string)
    ensures 1 <= |s|
    ensures AllDigits(s)
    ensures DecValue(s) == n
    ensures |s| > 1 ==> s[0] != '0'
  {
    if n < 10 then [DigitChar(n)]
    else
      var s := NatToDec(n / 10) + [DigitChar(n % 10)];
      assert s[..|s| - 1] == NatToDec(n / 10);
      s
  }

  lemma {:induction false} NatToDecLength(n: nat, k: nat)
    ensures 1 <= k && n < Pow10(k) ==> |NatToDec(n)| <= k
    decreases k
  {
    if 1 <= k && n < Pow10(k) && n >= 10 {
      NatToDecLength(n / 10, k - 1);
    }
  }

  /** Decimal text of an integer as `${i}` prints it: a leading '-' when negative. */
  predicate IsIntText(s: string)
  {
    AllDigits(s) || (1 <= |s| && s[0] == '-' && AllDigits(s[1..]))
  }

  function IntValue(s: string): int
    requires IsIntText(s)
  {
    if AllDigits(s) then DecValue(s) else -(DecValue(s[1..]) as int)
  }

  function IntToDec(i: int): (s: string)
    ensures 1 <= |s|
    ensures IsIntText(s) && IntValue(s) == i
  {
    if i < 0 then
      var s := "-" + NatToDec(-i);
      assert s[1..] == NatToDec(-i);
      assert !IsDigit(s[0]);
      s
    else NatToDec(i)
  }

  lemma {:induction false} LeadingZeros(k: nat, s: string)
    requires AllDigits(s)
    ensures AllDigits(seq(k, _ => '0') + s)
    ensures DecValue(seq(k, _ => '0') + s) == DecValue(s)
    decreases |s|
  {
    var z := seq(k, _ => '0');
    if s == [] {
      assert z + s == z;
      ZerosValue(k);
    } else {
      var t := z + s;
      assert t[..|t| - 1] == z + s[..|s| - 1];
      LeadingZeros(k, s[..|s| - 1]);
    }
  }

  lemma {:induction false} ZerosValue(k: nat)
    ensures AllDigits(seq(k, _ => '0'))
    ensures DecValue(seq(k, _ => '0')) == 0
  {
    if k > 0 {
      var z := seq(k, _ => '0');
      assert z[..k - 1] == seq(k - 1, _ => '0');
      ZerosValue(k - 1);
    }
  }

  /** `s.padStart(width, fill)`: `s` preceded by as many `fill` characters as it lacks. */
  function PadStart(s: string, width: nat, fill: char): (r: string)
    ensures |r| == if |s| >= width then |s| else width
    ensures r[|r| - |s|..] == s
    ensures forall i :: 0 <= i < |r| - |s| ==> r[i] == fill
  {
    if |s| >= width then s else seq(width - |s|, _ => fill) + s
  }

  /** `n.toString().padStart(width, '0')`. */
  function Pad(n: nat, width: nat): (s: string)
    ensures AllDigits(s) && DecValue(s) == n
    ensures 1 <= width && n < Pow10(width) ==> |s| == width
  {
    var d := NatToDec(n);
    LeadingZeros(if |d| >= width then 0 else width - |d|, d);
    assert |d| >= width ==> PadStart(d, width, '0') == seq(0, _ => '0') + d;
    NatToDecLength(n, width);
    PadStart(d, width, '0')
  }

  /** `s.replace(/from/g, to)` for a one-character pattern. */
  function ReplaceEvery(s: string, from: char, to: char): (r: string)
    ensures |r| == |s|
    ensures forall i :: 0 <= i < |s| && s[i] != from ==> r[i] == s[i]
    ensures forall i :: 0 <= i < |s| && s[i] == from ==> r[i] == to
  {
    if s == [] then []
    else [if s[0] == from then to else s[0]] + ReplaceEvery(s[1..], from, to)
  }

  predicate OccursAt(s: string, pat: string, i: nat)
  {
    i + |pat| <= |s| && s[i..i + |pat|] == pat
  }

  /** `s.replace(pat, rep)` with a string pattern: the first occurrence only. */
  function ReplaceFirst(s: string, pat: string, rep: string): string
    decreases |s|
  {
    if |s| < |pat| then s
    else if s[..|pat|] == pat then rep + s[|pat|..]
    else
      assert s != [];
      [s[0]] + ReplaceFirst(s[1..], pat, rep)
  }

  lemma OccursShift(s: string, pat: string, i: nat)
    requires 1 <= |s|
    ensures OccursAt(s[1..], pat, i) <==> OccursAt(s, pat, i + 1)
  {
    if i + 1 + |pat| <= |s| {
      assert s[1..][i..i + |pat|] == s[i + 1..i + 1 + |pat|];
    }
  }

  /** `replace` rewrites exactly the leftmost occurrence of the pattern. */
  lemma {:induction false} ReplaceFirstLeftmost(s: string, pat: string, rep: string, k: nat)
    requires OccursAt(s, pat, k)
    requires forall i: nat :: i < k ==> !OccursAt(s, pat, i)
    ensures ReplaceFirst(s, pat, rep) == s[..k] + rep + s[k + |pat|..]
    decreases k
  {
    if k == 0 {
      assert s[..|pat|] == pat;
    } else {
      assert !OccursAt(s, pat, 0);
      var t := s[1..];
      OccursShift(s, pat, k - 1);
      forall i: nat | i < k - 1
        ensures !OccursAt(t, pat, i)
      {
        OccursShift(s, pat, i);
      }
      ReplaceFirstLeftmost(t, pat, rep, k - 1);
      calc {
        ReplaceFirst(s, pat, rep);
        [s[0]] + ReplaceFirst(t, pat, rep);
        [s[0]] + (t[..k - 1] + rep + t[k - 1 + |pat|..]);
        { assert [s[0]] + t[..k - 1] == s[..k]; assert t[k - 1 + |pat|..] == s[k + |pat|..]; }
        s[..k] + rep + s[k + |pat|..];
      }
    }
  }

  /** Without any occurrence of the pattern, `replace` changes nothing. */
  lemma {:induction false} ReplaceFirstAbsent(s: string, pat: string, rep: string)
    requires forall i: nat :: i <= |s| ==> !OccursAt(s, pat, i)
    ensures ReplaceFirst(s, pat, rep) == s
    decreases |s|
  {
    if |s| >= |pat| {
      assert !OccursAt(s, pat, 0);
      var t := s[1..];
      forall i: nat | i <= |t|
        ensures !OccursAt(t, pat, i)
      {
        OccursShift(s, pat, i);
      }
      ReplaceFirstAbsent(t, pat, rep);
      assert [s[0]] + t == s;
    }
  }
}
